=== FILE: README.md ===
# QuickTools core, modelled in Dafny

QuickTools is an Android helper library written in Kotlin. Most of it is
platform plumbing. Underneath sit a few sequential rules that do not depend on
the platform, and this project models those rules:

- the connectivity poller `QuickInternetCheckService`: one timer firing, the
  `onlineSince`/`offlineSince`/`isOnline` bookkeeping, the 204 probe, the
  broadcast and the timer;
- the shared-preference wrapper `QuickPref`, and the extension helpers that
  write and read through it (`addWithId`, `addAsDefaultWithId`, the
  `get*PrefValue` readers, `rzPrefVal`, `removeDuplicates`);
- the saved-state helpers `saveStateOf`/`getStateOf`, and `BasePresenter`'s
  state bundle and weakly held view;
- the device helpers of `QuickAppUtils`: `isNetworkAvailable`,
  `getDeviceName`, `getLanguageIdentifier`, `isPluggedIn`, `getUUID`;
- the rapid-click guard `QuickClickGuard`, with its twins `QuickRapidIdler`
  and `CodeThrottle`;
- the SQL builders `simpleSelect`, `complexSelect` and `distinctSelect`, plus
  `BaseModel.delete`, `getDBPath` and the sanitiser `removeIllegalSQLChars`;
- `QuickDatabase`: the handle cache and the `singleSelect` cursor fold;
- the `inSampleSize` loop of `decodeFile`;
- the `Parcelable` round trip of `QuickServiceResponse`/`ServiceResponse`.

Platform answers become inputs of the model: the backgrounded flag, the radio
state, the probe's outcome, the clock, `Build.*`, the locale, the
battery intent, `Settings.Secure` and the open/query outcomes. Exceptions that
escape an operation are modelled as `Outcomes.Result` errors. These are
`ClassCast` (a preference read as the wrong type), `NullPointer` (`!!` on null),
`IllegalState` (a query on a closed database), `Arithmetic` (a division by
zero) and `Uncaught` (any other exception the code does not catch, such as a
`SecurityException` from the connectivity probe).

Modules, one concept each:

- `Outcomes`: `Result`, `Option`, `Fault`.
- `Prefs`: the preference store.
- `Extensions`: the preference extensions and `removeDuplicates`.
- `Connectivity`, and `CheckService` in the same file: the poller.
- `Device`: the device helpers.
- `RapidClick`: the click guard.
- `Sql`, and `BaseModel` in the same file: the query builders.
- `Sanitise`: `removeIllegalSQLChars`.
- `Database`: `QuickDatabase`.
- `SampleSize`: the `decodeFile` loop.
- `Parcels`: the response parcels.
- `Bundles` and `Presenter`: saved state and `BasePresenter`.

### Copies across revisions

The repository holds several revisions of the same logic. Each behaviour is
modelled once, and the table below cites the newest copy. The copies are:

- Every file carries its own copy of `getDBPath`, which `Sql.DbPath` models:
  - quicktools/src/main/java/com/rzahr/quicktools/utils/QuickDBUtils.kt:152-155
  - quicktools/src/main/java/com/rzahr/quicktools/QuickDBUtils.kt:115-118
  - quicktools/src/main/java/com/rzahr/quicktools/QuickDatabase.kt:39-42
  - quicktools/src/main/java/com/rzahr/quicktools/Utils.kt:614-617
- The older device helpers are the same rules as in `QuickAppUtils`:
  - quicktools/src/main/java/com/rzahr/quicktools/QuickApp.kt:86-90 (`isPluggedIn`)
  - quicktools/src/main/java/com/rzahr/quicktools/QuickApp.kt:109-113 (`getLanguageIdentifier`)
  - quicktools/src/main/java/com/rzahr/quicktools/QuickApp.kt:154-167 (`getDeviceName`)
  - quicktools/src/main/java/com/rzahr/quicktools/QuickApp.kt:185-193 (`getUUID`)
  - quicktools/src/main/java/com/rzahr/quicktools/QuickApp.kt:262-286 (`isNetworkAvailable`)
  - quicktools/src/main/java/com/rzahr/quicktools/Utils.kt:105-113
  - quicktools/src/main/java/com/rzahr/quicktools/Utils.kt:131-135
  - quicktools/src/main/java/com/rzahr/quicktools/Utils.kt:170-178
  - quicktools/src/main/java/com/rzahr/quicktools/Utils.kt:199-207
- The older query builders are textually the same rules:
  - quicktools/src/main/java/com/rzahr/quicktools/QuickDBUtils.kt:10-46
  - quicktools/src/main/java/com/rzahr/quicktools/Utils.kt:508-545
- quicktools/src/main/java/com/rzahr/quicktools/BaseClass.kt:21-95 is the older
  `BaseModel`/`BasePresenter`, with the same logic.
- quicktools/src/main/java/com/rzahr/quicktools/QuickRapidIdler.kt:10-22 and
  quicktools/src/main/java/com/rzahr/quicktools/CodeThrottle.kt:7-19 are the
  same guard as `QuickClickGuard`.
- quicktools/src/main/java/com/rzahr/quicktools/models/ServiceResponse.kt:7-50
  has the same parcel logic as `QuickServiceResponse`.
- quicktools/src/main/java/com/rzahr/quicktools/QuickExtensions.kt:14-155
  repeats the extension helpers through `QuickInjectable.quickPref()`. The newer
  helpers call `QuickInjectable.pref()`, which is not among the files modelled
  here (QuickInjectable.kt:35 defines only `quickPref()`). The model assumes
  both accessors return the one `QuickPref` store.

The one copy that differs is the older `removeDuplicates`, at
quicktools/src/main/java/com/rzahr/quicktools/QuickExtensions.kt:160-168. The
newer one builds a set; the older one returns a plain copy of the list. Both
are modelled.

### Behaviour worth noting

- A backgrounded firing still broadcasts `true`. `performChecks` cancels the
  timer and returns `true`, and `run()` passes that result to
  `setConnectionState` (quicktools/src/main/java/com/rzahr/quicktools/QuickInternetCheckService.kt:48,
  161-184; `CheckService.RunTask`, `CheckService.BackgroundStopsPolling`).
- An offline-to-online transition leaves `onlineSince` empty. The KDoc of
  `setOnlineSince` (QuickInternetCheckService.kt:204-205) says it saves the time
  the user got online (see Findings). The `Intended` revision of the poller
  does that.

## Model

| member | source | states |
|---|---|---|
| Prefs.Get | quicktools/src/main/java/com/rzahr/quicktools/QuickPref.kt:113-116 | the read succeeds exactly when the key is absent or holds a string; an absent key reads as "" |
| Prefs.GetInt | quicktools/src/main/java/com/rzahr/quicktools/QuickPref.kt:123-126 | the read succeeds exactly when the key is absent or holds an int; an absent key reads as -1 |
| Prefs.GetLong | quicktools/src/main/java/com/rzahr/quicktools/QuickPref.kt:39-42 | the read succeeds exactly when the key is absent or holds a long; an absent key reads as 0 |
| Prefs.GetBoolean | quicktools/src/main/java/com/rzahr/quicktools/QuickPref.kt:133-135 | the read succeeds exactly when the key is absent or holds a boolean; an absent key reads as false |
| Prefs.CheckSharedPrefValueIfExist | quicktools/src/main/java/com/rzahr/quicktools/QuickPref.kt:61-68 | when the key is absent, every typed getter returns its default; when it is present, exactly one typed getter can read it |
| Prefs.SetString | quicktools/src/main/java/com/rzahr/quicktools/QuickPref.kt:49-54 | the string read of the key returns the written value; every other key is unchanged |
| Prefs.SetIntValue | quicktools/src/main/java/com/rzahr/quicktools/QuickPref.kt:101-106 | the int read of the key returns the written value; every other key is unchanged |
| Prefs.SetLong | quicktools/src/main/java/com/rzahr/quicktools/QuickPref.kt:27-32 | a null value fails with NullPointer and writes nothing; otherwise the long read returns the value and no other key changes |
| Prefs.SetBoolean | quicktools/src/main/java/com/rzahr/quicktools/QuickPref.kt:15-20 | a null value fails with NullPointer and writes nothing; otherwise the boolean read returns the value and no other key changes |
| Prefs.SetStringDefault | quicktools/src/main/java/com/rzahr/quicktools/QuickPref.kt:76-84 | a key present under any type is left as it is; an absent key receives the value; afterwards the key is present |
| Prefs.SetLongDefault | quicktools/src/main/java/com/rzahr/quicktools/QuickPref.kt:92-99 | a present key is left as it is and `value!!` is never reached; an absent key behaves as `setLong`, including the null failure |
| Prefs.AbsentKeyDefaults | quicktools/src/main/java/com/rzahr/quicktools/QuickPref.kt:39-135 | for a key never written, the four getters return "", -1, 0 and false |
| Prefs.LastWriteWins | quicktools/src/main/java/com/rzahr/quicktools/QuickPref.kt:49-54 | two string writes to one key leave the same store as the second write alone |
| Prefs.DefaultSettersIdempotent | quicktools/src/main/java/com/rzahr/quicktools/QuickPref.kt:76-99 | calling `setStringDefault` or `setLongDefault` twice equals calling it once |
| Prefs.DefaultSkipsOtherType | quicktools/src/main/java/com/rzahr/quicktools/QuickPref.kt:61-84 | a default write skips a key that holds another type, so the string read of that key then throws |
| Extensions.AddIntWithId | quicktools/src/main/java/com/rzahr/quicktools/extensions/QuickExtensions.kt:179-182 | the int read returns the receiver; other keys unchanged |
| Extensions.AddStringWithId | quicktools/src/main/java/com/rzahr/quicktools/extensions/QuickExtensions.kt:188-191 | the string read returns the receiver; other keys unchanged |
| Extensions.AddLongWithId | quicktools/src/main/java/com/rzahr/quicktools/extensions/QuickExtensions.kt:206-209 | a non-null receiver never fails; the long read returns it; other keys unchanged |
| Extensions.AddBoolWithId | quicktools/src/main/java/com/rzahr/quicktools/extensions/QuickExtensions.kt:215-218 | a non-null receiver never fails; the boolean read returns it; other keys unchanged |
| Extensions.AddStringAsDefaultWithId | quicktools/src/main/java/com/rzahr/quicktools/extensions/QuickExtensions.kt:224-227 | an existing key of any type is kept as is; an absent key reads back the receiver |
| Extensions.AddLongAsDefaultWithId | quicktools/src/main/java/com/rzahr/quicktools/extensions/QuickExtensions.kt:242-245 | an existing key of any type is kept as is; an absent key reads back the receiver |
| Extensions.GetStringPrefValue | quicktools/src/main/java/com/rzahr/quicktools/extensions/QuickExtensions.kt:279-281 | the stored string, "" when absent; fails exactly when the key holds another type |
| Extensions.GetIntPrefValue | quicktools/src/main/java/com/rzahr/quicktools/extensions/QuickExtensions.kt:287-289 | the stored int, -1 when absent; fails exactly when the key holds another type |
| Extensions.GetLongPrefValue | quicktools/src/main/java/com/rzahr/quicktools/extensions/QuickExtensions.kt:263-265 | the stored long, 0 when absent; fails exactly when the key holds another type |
| Extensions.GetBoolPrefValue | quicktools/src/main/java/com/rzahr/quicktools/extensions/QuickExtensions.kt:271-273 | the stored boolean, false when absent; fails exactly when the key holds another type |
| Extensions.AddThenGetPrefValue | quicktools/src/main/java/com/rzahr/quicktools/extensions/QuickExtensions.kt:263-289 | each `get*PrefValue` reader returns what the matching `addWithId` wrote |
| Extensions.AddAsDefaultPreserves | quicktools/src/main/java/com/rzahr/quicktools/extensions/QuickExtensions.kt:224-245 | after a default write, a present key reads exactly as it did before |
| Extensions.PrefValByTypeName | quicktools/src/main/java/com/rzahr/quicktools/extensions/QuickExtensions.kt:299-308 | each class name selects its typed reader: that reader decides success and its value is returned under the matching tag; unknown names fall back to the string reader |
| Extensions.RzPrefVal | quicktools/src/main/java/com/rzahr/quicktools/extensions/QuickExtensions.kt:297-309 | the result is always a string value or a ClassCast failure, because the switch is on `String::class`; an int-typed key therefore fails |
| Extensions.RemoveDuplicates | quicktools/src/main/java/com/rzahr/quicktools/extensions/QuickExtensions.kt:252-257 | the result's members are exactly the list's elements, and there are at most as many as list entries |
| Extensions.RemoveDuplicatesCopy | quicktools/src/main/java/com/rzahr/quicktools/QuickExtensions.kt:160-168 | the older revision returns a list equal to its input, in order and length |
| Extensions.RemoveDuplicatesCopyKeepsDuplicates | quicktools/src/main/java/com/rzahr/quicktools/QuickExtensions.kt:157-168 | on ["a", "a"] the older revision returns a list that still holds a duplicate |
| Extensions.RemoveDuplicatesIntended | quicktools/src/main/java/com/rzahr/quicktools/QuickExtensions.kt:157-159 | the promised list: duplicate-free, with the same members, and no longer than the input |
| Connectivity.ResponseCode | quicktools/src/main/java/com/rzahr/quicktools/QuickInternetCheckService.kt:246-258 | a server answer is passed through unchanged; a caught `IOException` leaves the initial 0; any other exception escapes as an uncaught fault |
| Connectivity.ProbeSucceedsOnlyOn204 | quicktools/src/main/java/com/rzahr/quicktools/QuickInternetCheckService.kt:246-261 | the probe counts as success exactly when the server answered 204; it yields a code exactly when it did not throw an uncaught exception |
| Connectivity.SetOfflineSince | quicktools/src/main/java/com/rzahr/quicktools/QuickInternetCheckService.kt:193-202 | without the check it always writes the date; with the check it writes only over "", so an earlier stamp is kept; only `offlineSince` changes |
| Connectivity.SetOnlineSince | quicktools/src/main/java/com/rzahr/quicktools/QuickInternetCheckService.kt:210-216 | as written, `false` is a no-op and `true` always writes the date; the intended revision mirrors `setOfflineSince`; only `onlineSince` changes |
| Connectivity.MarkOffline | quicktools/src/main/java/com/rzahr/quicktools/QuickInternetCheckService.kt:169-177 | never fails on a typed store. `offlineSince` is overwritten when the stored flag said online, and otherwise written only over "". `isOnline` becomes false. `onlineSince` is untouched as written; with the corrected setter it becomes the date passed in |
| Connectivity.CheckNetwork | quicktools/src/main/java/com/rzahr/quicktools/QuickInternetCheckService.kt:244-288 | an exception other than `IOException` escapes. Otherwise, on a typed store, it never fails and keeps the types. The result is true exactly on a 204, and `isOnline` then equals the result. A 204 leaves `offlineSince` ""; any other outcome is the offline bookkeeping |
| Connectivity.RadioOffOnlineSinceArg | quicktools/src/main/java/com/rzahr/quicktools/QuickInternetCheckService.kt:174 | as written a non-empty date is passed; the corrected revision passes "" |
| Connectivity.PerformChecks | quicktools/src/main/java/com/rzahr/quicktools/QuickInternetCheckService.kt:159-185 | backgrounded: store untouched, result true, timer stopped. Otherwise, with the radio up, an exception escaping the probe is a failure. On a typed store with the radio down or a completed probe there is no failure, the timer keeps running, the types are kept, `isOnline` equals the result, and the result is true exactly when the radio is up and the probe got 204 |
| Connectivity.RadioOffSkipsProbe | quicktools/src/main/java/com/rzahr/quicktools/QuickInternetCheckService.kt:167-179 | with the radio down the probe's outcome is irrelevant; `isOnline` becomes false and the cycle returns false |
| Connectivity.IoFailureIsAnyOtherCode | quicktools/src/main/java/com/rzahr/quicktools/QuickInternetCheckService.kt:246-261 | a probe that threw gives the same cycle as any non-204 response |
| Connectivity.OfflineSinceRule | quicktools/src/main/java/com/rzahr/quicktools/QuickInternetCheckService.kt:275-284 | on an offline outcome `offlineSince` becomes now if the stored flag said online or the stamp was ""; otherwise the earliest stamp is kept |
| Connectivity.OnlineCycle | quicktools/src/main/java/com/rzahr/quicktools/QuickInternetCheckService.kt:261-272 | on a 204: result true, `isOnline` true, `offlineSince` "" |
| Connectivity.AsWrittenOnlineSince | quicktools/src/main/java/com/rzahr/quicktools/QuickInternetCheckService.kt:263-282 | as written, `onlineSince` becomes now only on a 204 while already online; in every other cycle it is unchanged, so it is never cleared |
| Connectivity.AsWrittenMissesOnlineTransition | quicktools/src/main/java/com/rzahr/quicktools/QuickInternetCheckService.kt:210-216 | an offline store with radio up and a 204 goes online with `onlineSince` still "" |
| Connectivity.AsWrittenBothStampsSet | quicktools/src/main/java/com/rzahr/quicktools/QuickInternetCheckService.kt:167-178 | as written, an offline cycle from an online store leaves both timestamps non-empty |
| Connectivity.IntendedExactlyOneStamp | quicktools/src/main/java/com/rzahr/quicktools/QuickInternetCheckService.kt:159-288 | with the corrected setter, after every cycle exactly one timestamp is non-empty: the one that matches the result |
| Connectivity.IntendedOnlineSince | quicktools/src/main/java/com/rzahr/quicktools/QuickInternetCheckService.kt:261-268 | with the corrected setter, a 204 stamps `onlineSince` with now on the transition and keeps the stamp while online |
| Connectivity.IntendedOnlineTransition | quicktools/src/main/java/com/rzahr/quicktools/QuickInternetCheckService.kt:261-272 | with the corrected setter, the failing scenario goes online since now, with `offlineSince` "" |
| CheckService.StartCheck | quicktools/src/main/java/com/rzahr/quicktools/QuickInternetCheckService.kt:42-53 | the timer runs at a fixed rate with delay 0 and period 15000 ms; the store is untouched |
| CheckService.SetConnectionState | quicktools/src/main/java/com/rzahr/quicktools/QuickInternetCheckService.kt:56-73 | the result is broadcast under the service's action whether or not it changed; `mOnlineTemp` is set even when delivery fails |
| CheckService.RunTask | quicktools/src/main/java/com/rzahr/quicktools/QuickInternetCheckService.kt:45-49 | the timer dies exactly when `performChecks` throws, with no broadcast and no write; otherwise exactly one broadcast of the new `mOnlineTemp`; a backgrounded firing cancels the timer and broadcasts true |
| CheckService.RunTicks | quicktools/src/main/java/com/rzahr/quicktools/QuickInternetCheckService.kt:52 | a stopped timer runs nothing; at most one broadcast per firing |
| CheckService.BackgroundStopsPolling | quicktools/src/main/java/com/rzahr/quicktools/QuickInternetCheckService.kt:152-162 | after a backgrounded firing the store is untouched, the only broadcast carries true, and later firings do nothing |
| CheckService.TypedStoreNeverFaults | quicktools/src/main/java/com/rzahr/quicktools/QuickInternetCheckService.kt:159-185 | from a typed store the types are kept; the timer dies only at a firing whose probe threw an uncaught exception; a running timer broadcasts once per firing |
| CheckService.EscapingProbeKillsTimer | quicktools/src/main/java/com/rzahr/quicktools/QuickInternetCheckService.kt:45-49 | a probe exception other than `IOException` escapes `run()` and ends the timer: nothing is written or broadcast, and no later firing runs |
| CheckService.IntendedKeepsAtMostOneStamp | quicktools/src/main/java/com/rzahr/quicktools/QuickInternetCheckService.kt:193-216 | with the corrected setter, "at most one timestamp is non-empty" holds after any run of firings |
| Device.IsNetworkAvailable | quicktools/src/main/java/com/rzahr/quicktools/utils/QuickAppUtils.kt:252-280 | returns true exactly when the radio query answered true and the read succeeded; any exception gives false |
| Device.NetworkAvailableStamps | quicktools/src/main/java/com/rzahr/quicktools/utils/QuickAppUtils.kt:257-273 | returns the radio state; the opposite timestamp becomes ""; the current one is written with now only if it was "" |
| Device.NetworkAvailableKeepsFirstStamp | quicktools/src/main/java/com/rzahr/quicktools/utils/QuickAppUtils.kt:259-272 | a second call in the same state changes nothing, so the first timestamp is kept |
| Device.NetworkAvailableFailureIsClean | quicktools/src/main/java/com/rzahr/quicktools/utils/QuickAppUtils.kt:275-279 | a failed query, or a wrongly typed timestamp key, writes nothing and returns false |
| Device.DeviceName | quicktools/src/main/java/com/rzahr/quicktools/utils/QuickAppUtils.kt:138-151 | the model when it starts with the manufacturer, otherwise manufacturer, a space, then the model; "UNKNOWN" when either value is null |
| Device.LanguageIdentifier | quicktools/src/main/java/com/rzahr/quicktools/utils/QuickAppUtils.kt:94-103 | "L" exactly when the locale is "l" or contains "en" in any case (the "en_US" test is subsumed); "A" otherwise |
| Device.IsPluggedIn | quicktools/src/main/java/com/rzahr/quicktools/utils/QuickAppUtils.kt:73-89 | true exactly for plugged codes 1, 2 and 4 (AC, USB, wireless); a missing intent or extra, or a thrown query, gives false |
| Device.GetUuid | quicktools/src/main/java/com/rzahr/quicktools/utils/QuickAppUtils.kt:169-177 | the platform id is used only while the cache is ""; the returned value is the new cache |
| Device.UuidCachedForever | quicktools/src/main/java/com/rzahr/quicktools/utils/QuickAppUtils.kt:171-176 | once a non-empty id is cached, any sequence of later calls keeps it |
| RapidClick.Create | quicktools/src/main/java/com/rzahr/quicktools/QuickClickGuard.kt:16-17 | a new guard is not initialised |
| RapidClick.Step | quicktools/src/main/java/com/rzahr/quicktools/QuickClickGuard.kt:19-28 | the block runs exactly when the guard accepts; it then records the time and sets `initialized`; a rejected call changes no state |
| RapidClick.FirstCallRuns | quicktools/src/main/java/com/rzahr/quicktools/QuickClickGuard.kt:17-24 | the first call runs whatever the elapsed time, and `initialized` stays true afterwards |
| RapidClick.LaterCallRule | quicktools/src/main/java/com/rzahr/quicktools/QuickClickGuard.kt:13-23 | an initialised guard runs the block exactly when strictly more than 800 ms elapsed |
| RapidClick.Run | quicktools/src/main/java/com/rzahr/quicktools/QuickClickGuard.kt:19-28 | over many calls: at most one run per call; consecutive runs more than 800 ms apart; the guard holds the last run's time |
| RapidClick.RunExtend | quicktools/src/main/java/com/rzahr/quicktools/QuickClickGuard.kt:19-28 | one more call extends a run by one guard step: the block runs on it exactly when the guard state after the earlier calls accepts it |
| RapidClick.SpacedCallsAllRun | quicktools/src/main/java/com/rzahr/quicktools/QuickClickGuard.kt:19-26 | conversely, when the first call is accepted and each later call comes more than 800 ms after the one before, every call runs |
| RapidClick.AcceptedSpacing | quicktools/src/main/java/com/rzahr/quicktools/QuickClickGuard.kt:23-26 | any two runs, not just neighbours, are more than 800 ms apart |
| Sql.SimpleSelect | quicktools/src/main/java/com/rzahr/quicktools/utils/QuickDBUtils.kt:28-41 | the query is the head followed by exactly the non-empty clauses, in the order WHERE, GROUP BY, ORDER BY |
| Sql.SimpleSelectBare | quicktools/src/main/java/com/rzahr/quicktools/utils/QuickDBUtils.kt:30 | with all clauses empty the query is exactly "SELECT c FROM t" |
| Sql.SimpleSelectOrder | quicktools/src/main/java/com/rzahr/quicktools/utils/QuickDBUtils.kt:32-36 | with all three clauses present they appear verbatim, in the fixed order |
| Sql.SimpleSelectLength | quicktools/src/main/java/com/rzahr/quicktools/utils/QuickDBUtils.kt:30-36 | each clause adds its keyword plus argument exactly when the argument is non-empty |
| Sql.DistinctSelect | quicktools/src/main/java/com/rzahr/quicktools/utils/QuickDBUtils.kt:74-83 | "SELECT DISTINCT c FROM t", then " WHERE w" exactly when w is non-empty |
| Sql.ComplexSelect | quicktools/src/main/java/com/rzahr/quicktools/utils/QuickDBUtils.kt:52-65 | one "LEFT OUTER JOIN j " per join, in array order, then WHERE and GROUP BY with no separator between them ("WHERE wGROUP BY g") |
| Sql.JoinTextAppend | quicktools/src/main/java/com/rzahr/quicktools/utils/QuickDBUtils.kt:56 | the join text of two lists in sequence is the text of the first followed by the text of the second, so array order is kept |
| Sql.DbPath | quicktools/src/main/java/com/rzahr/quicktools/utils/QuickDBUtils.kt:152-155 | the data directory followed by "/databases/" |
| BaseModel.SimpleSelect | quicktools/src/main/java/com/rzahr/quicktools/QuickBaseClass.kt:33-36 | delegates to `simpleSelect` unchanged |
| BaseModel.DistinctSelect | quicktools/src/main/java/com/rzahr/quicktools/QuickBaseClass.kt:38-41 | delegates to `distinctSelect` unchanged |
| BaseModel.Delete | quicktools/src/main/java/com/rzahr/quicktools/QuickBaseClass.kt:43-47 | "DELETE FROM t" followed by the same optional-WHERE tail as the select builders |
| BaseModel.DeleteShape | quicktools/src/main/java/com/rzahr/quicktools/QuickBaseClass.kt:45-46 | an empty condition gives "DELETE FROM t"; a non-empty one gives "DELETE FROM t WHERE w" |
| BaseModel.DeleteWhereMatchesDistinct | quicktools/src/main/java/com/rzahr/quicktools/QuickBaseClass.kt:38-46 | after their heads, `delete` and `distinctSelect` carry the same WHERE tail |
| Sanitise.RemoveIllegalIsClean | quicktools/src/main/java/com/rzahr/quicktools/utils/QuickUtils.kt:61-71 | the five successive replaces equal one left-to-right map: `'` becomes one space, `& # " ^` are deleted, all else is kept in order |
| Sanitise.SanitiseSplits | quicktools/src/main/java/com/rzahr/quicktools/utils/QuickUtils.kt:64-68 | the output is assembled character by character, each character replaced in place |
| Sanitise.RemoveIllegalSqlChars | quicktools/src/main/java/com/rzahr/quicktools/utils/QuickUtils.kt:61-71 | the output contains none of `' & # " ^`; every output character is an input character or the space that replaced a quote |
| Sanitise.SanitisedLength | quicktools/src/main/java/com/rzahr/quicktools/utils/QuickUtils.kt:65-68 | the output length is the input length minus the number of `& # " ^` |
| Sanitise.CleanStringUnchanged | quicktools/src/main/java/com/rzahr/quicktools/utils/QuickUtils.kt:63-70 | a string free of the five characters is returned unchanged |
| Sanitise.Idempotent | quicktools/src/main/java/com/rzahr/quicktools/utils/QuickUtils.kt:61-71 | sanitising twice equals sanitising once |
| Database.DatabaseFile | quicktools/src/main/java/com/rzahr/quicktools/QuickDatabase.kt:26 | the database file is `getDBPath` plus "Database.db" |
| Database.GetDatabaseInstance | quicktools/src/main/java/com/rzahr/quicktools/QuickDatabase.kt:20-36 | an open cached handle is returned without opening; otherwise a successful open caches and returns the new handle; a failed open returns null and leaves the cache |
| Database.CloseDatabase | quicktools/src/main/java/com/rzahr/quicktools/QuickDatabase.kt:44-50 | closes the cached handle only when it is open; afterwards no handle is open |
| Database.InstanceIsCached | quicktools/src/main/java/com/rzahr/quicktools/QuickDatabase.kt:22 | once a handle was returned, asking again returns the same handle whatever an open attempt would do |
| Database.CloseThenReopen | quicktools/src/main/java/com/rzahr/quicktools/QuickDatabase.kt:44-49 | after `closeDatabase` the next request opens a new handle |
| Database.IncrementFold | quicktools/src/main/java/com/rzahr/quicktools/QuickDatabase.kt:63-69 | in increment mode the result is `defaultReturn`, then each row's text and the delimiter, in row order; a null row contributes the text "null" |
| Database.LastValueFold | quicktools/src/main/java/com/rzahr/quicktools/QuickDatabase.kt:67 | otherwise only the last row matters: its value, or `defaultReturn` if it is null; no rows give `defaultReturn` |
| Database.SingleSelect | quicktools/src/main/java/com/rzahr/quicktools/QuickDatabase.kt:52-77 | a null handle fails with NullPointer and a closed one with IllegalState; an exception from `rawQuery` on an open handle escapes as Uncaught; otherwise the cursor fold's result, in both modes, and `defaultReturn` for a null or empty cursor |
| SampleSize.DoublingWraps | quicktools/src/main/java/com/rzahr/quicktools/utils/QuickFileUtils.kt:124 | `scale *= 2` on a Kotlin `Int` runs 1, 2, 4, …, 2^30, then -2^31, then 0 |
| SampleSize.LastHalving | quicktools/src/main/java/com/rzahr/quicktools/utils/QuickFileUtils.kt:123 | at scale 2^30 a positive requested width or height stops the loop |
| SampleSize.AlwaysHalving | quicktools/src/main/java/com/rzahr/quicktools/utils/QuickFileUtils.kt:123 | for reported bounds of at least -1 and requests of at most 0, the loop condition holds at every non-zero scale |
| SampleSize.SampleScale | quicktools/src/main/java/com/rzahr/quicktools/utils/QuickFileUtils.kt:122-124 | the scale is a power of two, at most 2^30, at which the condition fails; it held at every smaller power of two; scale 1 when it already fails at 1; always a result when a requested side is positive; division by zero otherwise, for the platform's bounds |
| SampleSize.DecodeFile | quicktools/src/main/java/com/rzahr/quicktools/utils/QuickFileUtils.kt:114-134 | a missing file yields null; otherwise the image is decoded at a sample size that ends the loop |
| Parcels.WriteToParcel | quicktools/src/main/java/com/rzahr/quicktools/models/QuickServiceResponse.kt:40-44 | appends `responseDetails`, `errorDetails`, `responseCode`, in that order, after what the parcel held |
| Parcels.ReadString | quicktools/src/main/java/com/rzahr/quicktools/models/QuickServiceResponse.kt:19-20 | succeeds exactly on a non-null string entry; past the end, or on a null, it throws |
| Parcels.ReadInt | quicktools/src/main/java/com/rzahr/quicktools/models/QuickServiceResponse.kt:21 | reads an int entry; past the end it reads 0 |
| Parcels.FromParcel | quicktools/src/main/java/com/rzahr/quicktools/models/QuickServiceResponse.kt:14-22 | reads string, string, int in that order; each field is exactly the entry read, never the initialiser |
| Parcels.WriteThenRead | quicktools/src/main/java/com/rzahr/quicktools/models/QuickServiceResponse.kt:18-44 | reading back what `writeToParcel` wrote gives equal fields and consumes exactly three entries |
| Parcels.ReadThenWrite | quicktools/src/main/java/com/rzahr/quicktools/models/QuickServiceResponse.kt:18-44 | a successful three-entry read consumed exactly what `writeToParcel` writes for the object read |
| Parcels.NewArray | quicktools/src/main/java/com/rzahr/quicktools/models/QuickServiceResponse.kt:51-53 | `newArray(n)` has n entries, all null |
| Bundles.Save | quicktools/src/main/java/com/rzahr/quicktools/extensions/QuickExtensions.kt:31-64 | a null bundle stays null; otherwise the key holds the saved value and every other entry is unchanged |
| Bundles.GetStringState | quicktools/src/main/java/com/rzahr/quicktools/extensions/QuickExtensions.kt:144-156 | the stored string, or the default for a null bundle, a missing key or another type |
| Bundles.GetBooleanState | quicktools/src/main/java/com/rzahr/quicktools/extensions/QuickExtensions.kt:162-174 | the stored boolean, or the default for a null bundle, a missing key or another type |
| Bundles.GetParcelableState | quicktools/src/main/java/com/rzahr/quicktools/extensions/QuickExtensions.kt:134-137 | non-null exactly when a parcelable is stored under the key |
| Bundles.GetParcelableListState | quicktools/src/main/java/com/rzahr/quicktools/extensions/QuickExtensions.kt:70-73 | non-null exactly when a parcelable list is stored under the key |
| Bundles.SaveThenGet | quicktools/src/main/java/com/rzahr/quicktools/extensions/QuickExtensions.kt:31-174 | each `saveStateOf` reads back through the matching `getStateOf`, whatever the default |
| Bundles.NullBundle | quicktools/src/main/java/com/rzahr/quicktools/extensions/QuickExtensions.kt:33-72 | saving into a null bundle does nothing; every read of it gives the default or null |
| Bundles.SaveLeavesOtherKeys | quicktools/src/main/java/com/rzahr/quicktools/extensions/QuickExtensions.kt:31-64 | a save under one key leaves reads of every other key as they were |
| Bundles.OtherTypeReadsAsDefault | quicktools/src/main/java/com/rzahr/quicktools/extensions/QuickExtensions.kt:144-156 | a boolean stored under the key makes the string read return the default |
| Presenter.GetStateBundle | quicktools/src/main/java/com/rzahr/quicktools/QuickBaseClass.kt:63-67 | always returns a bundle: a new empty one on first use, then the stored one |
| Presenter.OnPresenterDestroy | quicktools/src/main/java/com/rzahr/quicktools/QuickBaseClass.kt:69-73 | an existing bundle is kept but emptied; the view reference is untouched |
| Presenter.IsViewAttached | quicktools/src/main/java/com/rzahr/quicktools/QuickBaseClass.kt:109-110 | false without a reference; with one, true exactly while the referent has been neither cleared nor collected |
| Presenter.Collect | quicktools/src/main/java/com/rzahr/quicktools/QuickBaseClass.kt:106-110 | once the referent is collected, the reference remains but `view` reads null and no view counts as attached; the bundle is untouched |
| Presenter.SaveIntoState | quicktools/src/main/java/com/rzahr/quicktools/QuickBaseClass.kt:63-67 | a caller's write into the bundle `getStateBundle` handed out lands in the presenter's own bundle; the key holds the value and other keys are unchanged |
| Presenter.SavedStateVisible | quicktools/src/main/java/com/rzahr/quicktools/QuickBaseClass.kt:63-67 | what a caller saved through `getStateBundle` is read back by the next `getStateBundle` |
| Presenter.DestroyErasesSavedState | quicktools/src/main/java/com/rzahr/quicktools/QuickBaseClass.kt:69-73 | after `onPresenterDestroy` every key of the saved state reads as the default or null |
| Presenter.View | quicktools/src/main/java/com/rzahr/quicktools/QuickBaseClass.kt:106-107 | non-null exactly while a live view is attached |
| Presenter.AttachView | quicktools/src/main/java/com/rzahr/quicktools/QuickBaseClass.kt:93-98 | a no-op while a live view is attached; otherwise the view is stored and `setPresenter` is called on it |
| Presenter.DetachView | quicktools/src/main/java/com/rzahr/quicktools/QuickBaseClass.kt:100-104 | the reference is dropped and `view` is null |
| Presenter.StateBundleStable | quicktools/src/main/java/com/rzahr/quicktools/QuickBaseClass.kt:63-67 | a second `getStateBundle` returns the same bundle and changes nothing |
| Presenter.DestroyKeepsBundle | quicktools/src/main/java/com/rzahr/quicktools/QuickBaseClass.kt:69-73 | after `onPresenterDestroy` the bundle is still there, and empty |
| Presenter.AttachWhileAttached | quicktools/src/main/java/com/rzahr/quicktools/QuickBaseClass.kt:93-98 | attaching a second view while one is live changes nothing and calls nothing |
| Presenter.ReattachAfterDetachOrCollect | quicktools/src/main/java/com/rzahr/quicktools/QuickBaseClass.kt:100-110 | after `detachView`, or once the view was collected, `attachView` succeeds |

## Left out

- Timer threads, the `LocalBroadcastManager` delivery and the RxJava background work (`backgroundUpdater`/`RZBackgroundUpdater`) are left out: they are concurrency and OS scheduling. A firing is one step, and a delivery failure is an input.
- Date formatting (`QuickDateUtils`, `SimpleDateFormat`) is left out. A timestamp is an opaque non-empty string supplied by the caller, with one `now` per poller cycle. The source formats a fresh date for each setter.
- The asynchrony of `SharedPreferences.apply()` is left out: each write is visible at once.
- `Double.addWithId`, `roundNumber`, `getBatteryLevel` and `getResizedBitmap` are left out: they need floating point.
- `regEx`, `getFileMipMap` and `parseDoc` are left out: they call foreign libraries.
- File and stream I/O, the log writers, the UI, notification and view classes, the DI singletons and lifecycle callbacks are left out: they are platform plumbing, not core.
- The getters `getIsOnline`/`getOnlineSince`/`getOfflineSince`, `Int.get` and `getOSName` are left out: each is a single platform read.
- Database.SingleSelect: query text and arguments are not modelled; what `rawQuery` did (threw, null cursor, or the rows of column 0) is an input.
- Device.LanguageIdentifier: case-insensitive matching is modelled for ASCII letters only; Kotlin's `ignoreCase` also folds other Unicode letters.
- Device.GetUuid: the platform id is a non-null string. A null `ANDROID_ID`, which would make the cache null, is not modelled.
- Device.DeviceName: a null `Build` value stands for any exception inside the `try`. The check for a null receiver is not modelled separately.
- Parcels.ReadString: a parcel holds typed entries. Reading an entry of the other kind fails with `ClassCast`; at the byte level it would read unrelated data.
- Bundles.Save: parcelables are opaque numbers; their contents are not modelled.
- Extensions.RzPrefVal: the unchecked cast `as I` at the call site is not modelled. It would throw when a caller asks for another type.
- Presenter.AttachView: garbage collection of the weakly held view is an explicit `Presenter.Collect` step rather than something that can happen at any moment.
- The lifecycle-observer registration (`attachLifecycle`/`detachLifecycle`), `onPresenterCreated` and `BasePresenter.getString` are left out: they are platform calls with no logic of their own.

## Findings

| source | as written | input that shows it | evidently intended | confidence | as-written member | corrected member |
|---|---|---|---|---|---|---|
| quicktools/src/main/java/com/rzahr/quicktools/QuickInternetCheckService.kt:210-216 | the `else` binds to the inner `if`: `setOnlineSince(d, false)` does nothing and `setOnlineSince(d, true)` always overwrites. An offline-to-online transition therefore never stamps `onlineSince`, and an offline cycle never clears it | store {isOnline: false, onlineSince: "", offlineSince: "2024-01-01 10:00:00"}, radio up, probe answers 204: the cycle goes online with `onlineSince` still "" | the `else` belongs to the outer `if`, as in `setOfflineSince`. The radio-off branch (line 174) then also passes "", as the probe-failure branch does at line 282. Exactly one timestamp is then non-empty after every cycle | high, not executed | Connectivity.AsWrittenMissesOnlineTransition | Connectivity.IntendedOnlineTransition |
| quicktools/src/main/java/com/rzahr/quicktools/QuickExtensions.kt:157-168 | the older `removeDuplicates` copies every element into a new list, so duplicates are kept despite its doc comment | ["a", "a"] gives ["a", "a"] | a list holding each element once | high, not executed | Extensions.RemoveDuplicatesCopyKeepsDuplicates | Extensions.RemoveDuplicatesIntended |

=== FILE: bundles.dfy ===
/** The saved-instance-state helpers of the extension files: `saveStateOf` and
    `getStateOf` over a nullable `Bundle`. A bundle is a map from key to a tagged
    value; parcelables are opaque and stand in as numbers. As on the platform, a
    typed bundle read of a key holding another type yields the "missing" answer. */
module Bundles {
  import opened Outcomes

  datatype BundleValue =
    | BString(s: string)
    | BBool(b: bool)
    | BParcelable(item: nat)
    | BParcelableList(items: seq<nat>)

  type Bundle = map<string, BundleValue>

  /** `saveStateOf` on a receiver whose bundle entry is `v`: `outState?.put*`. */
  function Save(v: BundleValue, id: string, outState: Option<Bundle>): (r: Option<Bundle>)
    ensures outState.None? <==> r.None?
    ensures r.Some? ==> id in r.value && r.value[id] == v
    ensures r.Some? ==> forall k :: k != id ==> (k in r.value <==> k in outState.value)
    ensures r.Some? ==> forall k :: k in outState.value && k != id ==> r.value[k] == outState.value[k]
  {
    match outState
    case None => None
    case Some(b) => Some(b[id := v])
  }

  function SaveString(value: string, id: string, outState: Option<Bundle>): Option<Bundle> {
    Save(BString(value), id, outState)
  }

  function SaveBoolean(value: bool, id: string, outState: Option<Bundle>): Option<Bundle> {
    Save(BBool(value), id, outState)
  }

  function SaveParcelable(value: nat, id: string, outState: Option<Bundle>): Option<Bundle> {
    Save(BParcelable(value), id, outState)
  }

  function SaveParcelableList(value: seq<nat>, id: string, outState: Option<Bundle>): Option<Bundle> {
    Save(BParcelableList(value), id, outState)
  }

  /** The string `getStateOf`: the stored string, otherwise `default` (a null
      bundle makes `!!` throw, and the catch returns `default`). */
  function GetStringState(b: Option<Bundle>, id: string, default: string): (r: string)
    ensures (b.Some? && id in b.value && b.value[id].BString?) ==> r == b.value[id].s
    ensures !(b.Some? && id in b.value && b.value[id].BString?) ==> r == default
  {
    if b.Some? && id in b.value && b.value[id].BString? then b.value[id].s else default
  }

  /** The boolean `getStateOf`, with the same fallback to `default`. */
  function GetBooleanState(b: Option<Bundle>, id: string, default: bool): (r: bool)
    ensures (b.Some? && id in b.value && b.value[id].BBool?) ==> r == b.value[id].b
    ensures !(b.Some? && id in b.value && b.value[id].BBool?) ==> r == default
  {
    if b.Some? && id in b.value && b.value[id].BBool? then b.value[id].b else default
  }

  /** The parcelable `getStateOf`: null unless a parcelable is stored. */
  function GetParcelableState(b: Option<Bundle>, id: string): (r: Option<nat>)
    ensures r.Some? <==> b.Some? && id in b.value && b.value[id].BParcelable?
    ensures r.Some? ==> r.value == b.value[id].item
  {
    if b.Some? && id in b.value && b.value[id].BParcelable? then Some(b.value[id].item) else None
  }

  /** The parcelable-list `getStateOf`: null unless a list is stored. */
  function GetParcelableListState(b: Option<Bundle>, id: string): (r: Option<seq<nat>>)
    ensures r.Some? <==> b.Some? && id in b.value && b.value[id].BParcelableList?
    ensures r.Some? ==> r.value == b.value[id].items
  {
    if b.Some? && id in b.value && b.value[id].BParcelableList? then Some(b.value[id].items) else None
  }

  /** Each saved value reads back through its matching `getStateOf`, whatever
      the default. */
  lemma SaveThenGet(b: Bundle, id: string, s: string, flag: bool, item: nat, items: seq<nat>, dflt: string, dfltFlag: bool)
    ensures GetStringState(SaveString(s, id, Some(b)), id, dflt) == s
    ensures GetBooleanState(SaveBoolean(flag, id, Some(b)), id, dfltFlag) == flag
    ensures GetParcelableState(SaveParcelable(item, id, Some(b)), id) == Some(item)
    ensures GetParcelableListState(SaveParcelableList(items, id, Some(b)), id) == Some(items)
  {
  }

  /** Saving into a null bundle changes nothing, and every read of a null
      bundle gives the fallback. */
  lemma NullBundle(v: BundleValue, id: string, other: string, dflt: string, dfltFlag: bool)
    ensures Save(v, id, None) == None
    ensures GetStringState(None, other, dflt) == dflt
    ensures GetBooleanState(None, other, dfltFlag) == dfltFlag
    ensures GetParcelableState(None, other) == None && GetParcelableListState(None, other) == None
  {
  }

  /** A save under one key leaves every read of another key as it was. */
  lemma SaveLeavesOtherKeys(v: BundleValue, id: string, other: string, b: Bundle, dflt: string)
    requires other != id
    ensures GetStringState(Save(v, id, Some(b)), other, dflt) == GetStringState(Some(b), other, dflt)
    ensures GetParcelableState(Save(v, id, Some(b)), other) == GetParcelableState(Some(b), other)
  {
  }

  /** A value of another type under the key reads as missing. */
  lemma OtherTypeReadsAsDefault(b: Bundle, id: string, flag: bool, dflt: string)
    ensures GetStringState(SaveBoolean(flag, id, Some(b)), id, dflt) == dflt
  {
  }
}

/** `BasePresenter` (QuickBaseClass.kt, and the identical older BaseClass.kt):
    the lazily created state bundle and the weakly referenced view. Garbage
    collection of the view is an explicit step, `Collect`, that may happen at
    any time. */
module Presenter {
  import opened Outcomes
  import opened Bundles

  /** A `WeakReference` to view `view`; `alive` is false once collected or cleared. */
  datatype WeakRef = WeakRef(view: nat, alive: bool)

  datatype Presenter = Presenter(stateBundle: Option<Bundle>, ref: Option<WeakRef>)

  const INITIAL: Presenter := Presenter(None, None)

  /** `getStateBundle`: creates an empty bundle on first use, then returns it. */
  function GetStateBundle(pr: Presenter): (r: (Presenter, Option<Bundle>))
    ensures r.1.Some? && r.0.stateBundle == r.1 && r.0.ref == pr.ref
    ensures pr.stateBundle.Some? ==> r == (pr, pr.stateBundle)
    ensures pr.stateBundle.None? ==> r.1 == Some(map[])
  {
    if pr.stateBundle.None? then
      var pr1 := pr.(stateBundle := Some(map[]));
      (pr1, pr1.stateBundle)
    else (pr, pr.stateBundle)
  }

  /** `onPresenterDestroy`: empties a non-empty bundle in place. */
  function OnPresenterDestroy(pr: Presenter): (r: Presenter)
    ensures r.ref == pr.ref
    ensures r.stateBundle.Some? <==> pr.stateBundle.Some?
    ensures r.stateBundle.Some? ==> r.stateBundle.value == map[]
  {
    if pr.stateBundle.Some? && pr.stateBundle.value != map[] then pr.(stateBundle := Some(map[]))
    else pr
  }

  /** `isViewAttached`: false without a reference; with one, true exactly while
      its referent has been neither cleared nor collected. */
  function IsViewAttached(pr: Presenter): (r: bool)
    ensures pr.ref.None? ==> !r
    ensures pr.ref.Some? ==> (r <==> pr.ref.value.alive)
  {
    pr.ref.Some? && pr.ref.value.alive
  }

  /** The `view` property: `weakReference?.get()`. */
  function View(pr: Presenter): (v: Option<nat>)
    ensures v.Some? <==> IsViewAttached(pr)
    ensures v.Some? ==> v.value == pr.ref.value.view
  {
    if IsViewAttached(pr) then Some(pr.ref.value.view) else None
  }

  /** `attachView`: when no live view is attached, stores a new weak reference
      and calls `setPresenter(this)` on the view; the second component is the
      view `setPresenter` was called on, if any. */
  function AttachView(pr: Presenter, view: nat): (r: (Presenter, Option<nat>))
    ensures IsViewAttached(pr) ==> r == (pr, None)
    ensures !IsViewAttached(pr) ==> r.1 == Some(view) && View(r.0) == Some(view)
    ensures r.0.stateBundle == pr.stateBundle
  {
    if IsViewAttached(pr) then (pr, None)
    else (pr.(ref := Some(WeakRef(view, true))), Some(view))
  }

  /** `detachView`: clears and drops the reference. */
  function DetachView(pr: Presenter): (r: Presenter)
    ensures r.ref.None? && View(r).None? && r.stateBundle == pr.stateBundle
  {
    pr.(ref := None)
  }

  /** The garbage collector reclaims the view: a weak reference that existed
      still exists, for the same view, but no longer yields it. */
  function Collect(pr: Presenter): (r: Presenter)
    ensures !IsViewAttached(r) && View(r).None? && r.stateBundle == pr.stateBundle
    ensures r.ref.Some? <==> pr.ref.Some?
    ensures r.ref.Some? ==> r.ref.value.view == pr.ref.value.view
  {
    match pr.ref
    case None => pr
    case Some(w) => pr.(ref := Some(w.(alive := false)))
  }

  /** A caller's `saveStateOf(id, getStateBundle())`: the bundle handed out is the
      presenter's own, so the write lands in the presenter's state. The key holds
      the value, and every other key of an existing bundle is unchanged. */
  function SaveIntoState(pr: Presenter, v: BundleValue, id: string): (r: Presenter)
    ensures r.ref == pr.ref
    ensures r.stateBundle.Some? && id in r.stateBundle.value && r.stateBundle.value[id] == v
    ensures pr.stateBundle.None? ==> r.stateBundle.value.Keys == {id}
    ensures pr.stateBundle.Some? ==>
      forall k :: k != id ==> (k in r.stateBundle.value <==> k in pr.stateBundle.value)
    ensures pr.stateBundle.Some? ==>
      forall k :: k in pr.stateBundle.value && k != id ==> r.stateBundle.value[k] == pr.stateBundle.value[k]
  {
    var (pr1, b) := GetStateBundle(pr);
    pr1.(stateBundle := Save(v, id, b))
  }

  /** What a caller saved through `getStateBundle` is seen by the next
      `getStateBundle`. */
  lemma SavedStateVisible(pr: Presenter, id: string, s: string, flag: bool, dflt: string, dfltFlag: bool)
    ensures GetStringState(GetStateBundle(SaveIntoState(pr, BString(s), id)).1, id, dflt) == s
    ensures GetBooleanState(GetStateBundle(SaveIntoState(pr, BBool(flag), id)).1, id, dfltFlag) == flag
  {
  }

  /** `onPresenterDestroy` erases what callers saved: afterwards every key of the
      state reads as the default or null. */
  lemma DestroyErasesSavedState(pr: Presenter, v: BundleValue, id: string, key: string, dflt: string)
    ensures var b := GetStateBundle(OnPresenterDestroy(SaveIntoState(pr, v, id))).1;
      && GetStringState(b, key, dflt) == dflt
      && GetParcelableState(b, key).None?
      && GetParcelableListState(b, key).None?
  {
  }

  /** The bundle is created once: every later call returns that same bundle. */
  lemma StateBundleStable(pr: Presenter)
    ensures var (pr1, b1) := GetStateBundle(pr);
            GetStateBundle(pr1) == (pr1, b1)
  {
  }

  /** After `onPresenterDestroy` the bundle is still there, and empty. */
  lemma DestroyKeepsBundle(pr: Presenter)
    ensures var pr1 := OnPresenterDestroy(GetStateBundle(pr).0);
            GetStateBundle(pr1).1 == Some(map[])
  {
  }

  /** While a live view is attached, attaching another has no effect at all. */
  lemma AttachWhileAttached(pr: Presenter, first: nat, second: nat)
    ensures var pr1 := AttachView(pr, first).0;
            AttachView(pr1, second) == (pr1, None)
  {
  }

  /** After `detachView`, or once the view was collected, `attachView` succeeds. */
  lemma ReattachAfterDetachOrCollect(pr: Presenter, view: nat)
    ensures AttachView(DetachView(pr), view).1 == Some(view)
    ensures AttachView(Collect(pr), view).1 == Some(view)
  {
  }
}

=== FILE: connectivity.dfy ===
/** The connectivity poller of `QuickInternetCheckService`. One timer firing is a
    pure function of the preference store, whether the app is backgrounded,
    whether a network interface is connected, the probe's outcome and the current
    timestamp. Platform queries, the clock and the HTTP probe are inputs.

    The service's `setOnlineSince` has a dangling `else`; the code as written and
    the evidently intended revision are both modelled, selected by `Revision`. */
module Connectivity {
  import opened Outcomes
  import opened Prefs
  import opened Extensions

  const IS_ONLINE_KEY := "isOnline"
  const ONLINE_SINCE_KEY := "onlineSince"
  const OFFLINE_SINCE_KEY := "offlineSince"
  const BROADCAST_ACTION := "com.rzahr.quicktools.CONNECTION_CHECKER_BROAD_CAST_IDENTIFIER"

  /** HTTP 204 No Content (section 15.3.5 of RFC 9110): the only success code. */
  const NO_CONTENT := 204
  /** The code the probe reports when the connection throws an `IOException`. */
  const UNSET_CODE := 0
  const PROBE_URL := "http://clients3.google.com/generate_204"
  const CONNECT_TIMEOUT_MS := 2000
  const TIMER_DELAY_MS := 0
  const TIMER_PERIOD_MS := 15000

  /** A formatted current date; the formatter never yields "". */
  type Timestamp = s: string | |s| > 0 witness "0"

  /** What the HTTP probe did: answered with a status code, threw the
      `IOException` that `checkNetwork` catches, or threw anything else (a
      `SecurityException` without the INTERNET permission, say), which escapes. */
  datatype Probe = Responded(code: int) | IoFailure | Threw

  /** `setOnlineSince` as the source has it, or with the `else` on the outer `if`. */
  datatype Revision = AsWritten | Intended

  /** The outcome of one `performChecks`. */
  datatype Cycle = Cycle(store: Store, result: bool, timerStopped: bool)

  /** The three poller keys hold the types the poller writes (or are absent). */
  predicate PollerTyped(p: Store) {
    HoldsBool(p, IS_ONLINE_KEY) && HoldsString(p, ONLINE_SINCE_KEY) && HoldsString(p, OFFLINE_SINCE_KEY)
  }

  /** The stored value of a typed string key. */
  function Stamp(p: Store, key: string): string
    requires HoldsString(p, key)
  {
    Get(p, key).value
  }

  /** The stored `isOnline` flag of a typed store. */
  function WasOnline(p: Store): bool
    requires HoldsBool(p, IS_ONLINE_KEY)
  {
    GetBoolean(p, IS_ONLINE_KEY).value
  }

  // ------------------------------------------------------------ probe

  /** `checkNetwork`'s response code: the server's answer is passed through, a
      caught `IOException` leaves the initial 0, and any other exception escapes. */
  function ResponseCode(probe: Probe): (r: Result<int>)
    ensures probe.Responded? ==> r == Ok(probe.code)
    ensures probe.IoFailure? ==> r == Ok(UNSET_CODE)
    ensures probe.Threw? <==> r.Err?
    ensures r.Err? ==> r.fault == Uncaught
  {
    match probe
    case Responded(c) => Ok(c)
    case IoFailure => Ok(UNSET_CODE)
    case Threw => Err(Uncaught)
  }

  /** The probe counts as success exactly for a 204 response. */
  predicate ProbeSucceeded(probe: Probe) {
    ResponseCode(probe) == Ok(NO_CONTENT)
  }

  /** The probe completed: it answered or threw the caught `IOException`. */
  predicate ProbeCompleted(probe: Probe) {
    !probe.Threw?
  }

  lemma ProbeSucceedsOnlyOn204(probe: Probe)
    ensures ProbeSucceeded(probe) <==> probe == Responded(204)
    ensures ProbeCompleted(probe) <==> ResponseCode(probe).Ok?
  {
  }

  // ------------------------------------------------------------ timestamp setters

  /** `setOfflineSince`: with the check, writes only when the key is empty;
      without it, always writes. */
  function SetOfflineSince(p: Store, date: string, checkIfEmpty: bool): (r: Result<Store>)
    ensures r.Ok? <==> (!checkIfEmpty || HoldsString(p, OFFLINE_SINCE_KEY))
    ensures r.Ok? ==> SameExcept(p, r.value, OFFLINE_SINCE_KEY)
    ensures r.Ok? && !checkIfEmpty ==> Get(r.value, OFFLINE_SINCE_KEY) == Ok(date)
    ensures r.Ok? && checkIfEmpty ==>
      Get(r.value, OFFLINE_SINCE_KEY) == Ok(if Stamp(p, OFFLINE_SINCE_KEY) == "" then date else Stamp(p, OFFLINE_SINCE_KEY))
  {
    if checkIfEmpty then
      var current :- Get(p, OFFLINE_SINCE_KEY);
      if current == "" then Ok(AddStringWithId(p, OFFLINE_SINCE_KEY, date)) else Ok(p)
    else Ok(AddStringWithId(p, OFFLINE_SINCE_KEY, date))
  }

  /** `setOnlineSince`. As written, the `else` binds to the inner `if`: without the
      check nothing happens, with it the date is written whether or not the key
      was empty. The intended revision mirrors `setOfflineSince`. */
  function SetOnlineSince(rev: Revision, p: Store, date: string, checkIfEmpty: bool): (r: Result<Store>)
    ensures r.Ok? <==> (!checkIfEmpty || HoldsString(p, ONLINE_SINCE_KEY))
    ensures r.Ok? ==> SameExcept(p, r.value, ONLINE_SINCE_KEY)
    ensures rev == AsWritten && !checkIfEmpty ==> r == Ok(p)
    ensures rev == AsWritten && r.Ok? && checkIfEmpty ==> Get(r.value, ONLINE_SINCE_KEY) == Ok(date)
    ensures rev == Intended && !checkIfEmpty ==> r.Ok? && Get(r.value, ONLINE_SINCE_KEY) == Ok(date)
    ensures rev == Intended && r.Ok? && checkIfEmpty ==>
      Get(r.value, ONLINE_SINCE_KEY) == Ok(if Stamp(p, ONLINE_SINCE_KEY) == "" then date else Stamp(p, ONLINE_SINCE_KEY))
  {
    match rev
    case AsWritten =>
      if checkIfEmpty then
        var current :- Get(p, ONLINE_SINCE_KEY);
        if current == "" then Ok(AddStringWithId(p, ONLINE_SINCE_KEY, date))
        else Ok(AddStringWithId(p, ONLINE_SINCE_KEY, date))
      else Ok(p)
    case Intended =>
      if checkIfEmpty then
        var current :- Get(p, ONLINE_SINCE_KEY);
        if current == "" then Ok(AddStringWithId(p, ONLINE_SINCE_KEY, date)) else Ok(p)
      else Ok(AddStringWithId(p, ONLINE_SINCE_KEY, date))
  }

  // ------------------------------------------------------------ one cycle

  /** The offline bookkeeping shared by the radio-off branch of `performChecks`
      and the failure branch of `checkNetwork`; they differ only in the date
      passed to `setOnlineSince`. On a typed store it never fails: `offlineSince`
      is overwritten when the stored flag said online and otherwise written only
      over "", `isOnline` becomes false, and the poller types are kept. */
  function MarkOffline(rev: Revision, p: Store, now: Timestamp, onlineSinceArg: string): (r: Result<Store>)
    ensures r.Ok? <==> HoldsBool(p, IS_ONLINE_KEY) && (WasOnline(p) || HoldsString(p, OFFLINE_SINCE_KEY))
    ensures PollerTyped(p) ==> r.Ok? && PollerTyped(r.value)
    ensures r.Ok? ==> GetBoolean(r.value, IS_ONLINE_KEY) == Ok(false)
    ensures r.Ok? && PollerTyped(p) ==>
      Stamp(r.value, OFFLINE_SINCE_KEY)
        == if WasOnline(p) || Stamp(p, OFFLINE_SINCE_KEY) == "" then now else Stamp(p, OFFLINE_SINCE_KEY)
    ensures r.Ok? && PollerTyped(p) && rev == AsWritten ==> Stamp(r.value, ONLINE_SINCE_KEY) == Stamp(p, ONLINE_SINCE_KEY)
    ensures r.Ok? && PollerTyped(p) && rev == Intended ==> Stamp(r.value, ONLINE_SINCE_KEY) == onlineSinceArg
  {
    var wasOnline :- GetBoolean(p, IS_ONLINE_KEY);
    var p1 :- SetOfflineSince(p, now, !wasOnline);
    var p2 := SetOnlineSince(rev, p1, onlineSinceArg, false).value;
    Ok(AddBoolWithId(p2, IS_ONLINE_KEY, false))
  }

  /** `checkNetwork`, given the probe's outcome. On a typed store a completed probe
      never fails. A 204 reports true, with `isOnline` true and `offlineSince` "";
      any other completed outcome performs the offline bookkeeping and reports
      false; an exception other than `IOException` escapes. */
  function CheckNetwork(rev: Revision, p: Store, probe: Probe, now: Timestamp): (r: Result<(Store, bool)>)
    ensures probe.Threw? ==> r == Err(Uncaught)
    ensures PollerTyped(p) && ProbeCompleted(probe) ==> r.Ok? && PollerTyped(r.value.0)
    ensures r.Ok? ==> (r.value.1 <==> ProbeSucceeded(probe))
    ensures r.Ok? ==> GetBoolean(r.value.0, IS_ONLINE_KEY) == Ok(r.value.1)
    ensures r.Ok? && r.value.1 ==> Get(r.value.0, OFFLINE_SINCE_KEY) == Ok("")
    ensures ProbeCompleted(probe) && !ProbeSucceeded(probe) ==>
      (r.Ok? <==> MarkOffline(rev, p, now, "").Ok?) && (r.Ok? ==> r.value.0 == MarkOffline(rev, p, now, "").value)
  {
    var code :- ResponseCode(probe);
    if code == NO_CONTENT then
      var wasOnline :- GetBoolean(p, IS_ONLINE_KEY);
      var p1 :- SetOnlineSince(rev, p, now, wasOnline);
      var p2 := SetOfflineSince(p1, "", false).value;
      Ok((AddBoolWithId(p2, IS_ONLINE_KEY, true), true))
    else
      var q :- MarkOffline(rev, p, now, "");
      Ok((q, false))
  }

  /** The date the radio-off branch hands to `setOnlineSince`: the current date as
      written (harmless only because that call is a no-op), "" once the setter is
      corrected, so that the offline cycle clears `onlineSince`. */
  function RadioOffOnlineSinceArg(rev: Revision, now: Timestamp): (d: string)
    ensures rev == AsWritten ==> d != ""
    ensures rev == Intended ==> d == ""
  {
    match rev
    case AsWritten => now
    case Intended => ""
  }

  /** `performChecks`: one timer firing. */
  function PerformChecks(rev: Revision, p: Store, backgrounded: bool, radioConnected: bool,
                         probe: Probe, now: Timestamp): (r: Result<Cycle>)
    ensures backgrounded ==> r == Ok(Cycle(p, true, true))
    ensures !backgrounded && radioConnected && probe.Threw? ==> r == Err(Uncaught)
    ensures !backgrounded && PollerTyped(p) && (!radioConnected || ProbeCompleted(probe)) ==>
      r.Ok? && !r.value.timerStopped && PollerTyped(r.value.store)
    ensures !backgrounded && r.Ok? ==>
      GetBoolean(r.value.store, IS_ONLINE_KEY) == Ok(r.value.result)
    ensures !backgrounded && r.Ok? ==> (r.value.result <==> radioConnected && ProbeSucceeded(probe))
  {
    if backgrounded then Ok(Cycle(p, true, true))
    else if !radioConnected then
      var q :- MarkOffline(rev, p, now, RadioOffOnlineSinceArg(rev, now));
      Ok(Cycle(q, false, false))
    else
      var outcome :- CheckNetwork(rev, p, probe, now);
      Ok(Cycle(outcome.0, outcome.1, false))
  }

  // ------------------------------------------------------------ cycle properties

  /** A cycle that ends offline: radio down, or the probe completed without a 204. */
  predicate OfflineOutcome(backgrounded: bool, radioConnected: bool, probe: Probe) {
    !backgrounded && (!radioConnected || (ProbeCompleted(probe) && !ProbeSucceeded(probe)))
  }

  /** The cycle reaches a result: the radio is down, or the probe completed. */
  predicate CycleCompletes(radioConnected: bool, probe: Probe) {
    !radioConnected || ProbeCompleted(probe)
  }

  /** With the radio down no probe is made: the probe's outcome is irrelevant,
      `isOnline` becomes false and the cycle reports false. */
  lemma RadioOffSkipsProbe(rev: Revision, p: Store, probe1: Probe, probe2: Probe, now: Timestamp)
    requires PollerTyped(p)
    ensures PerformChecks(rev, p, false, false, probe1, now) == PerformChecks(rev, p, false, false, probe2, now)
    ensures PerformChecks(rev, p, false, false, probe1, now).Ok?
    ensures !PerformChecks(rev, p, false, false, probe1, now).value.result
    ensures GetBoolean(PerformChecks(rev, p, false, false, probe1, now).value.store, IS_ONLINE_KEY) == Ok(false)
  {
  }

  /** An I/O failure of the probe is handled exactly like any non-204 response. */
  lemma IoFailureIsAnyOtherCode(rev: Revision, p: Store, radioConnected: bool, code: int, now: Timestamp)
    requires code != NO_CONTENT
    ensures PerformChecks(rev, p, false, radioConnected, IoFailure, now)
         == PerformChecks(rev, p, false, radioConnected, Responded(code), now)
  {
  }

  /** On an offline outcome `offlineSince` is overwritten with now when the stored
      flag said online; otherwise it is written only when empty, keeping the
      earliest offline time. */
  lemma OfflineSinceRule(rev: Revision, p: Store, radioConnected: bool, probe: Probe, now: Timestamp)
    requires PollerTyped(p) && OfflineOutcome(false, radioConnected, probe)
    ensures var q := PerformChecks(rev, p, false, radioConnected, probe, now).value.store;
      Stamp(q, OFFLINE_SINCE_KEY)
        == if WasOnline(p) || Stamp(p, OFFLINE_SINCE_KEY) == "" then now else Stamp(p, OFFLINE_SINCE_KEY)
  {
  }

  /** On a 204: `offlineSince` becomes "", `isOnline` becomes true, the result is true. */
  lemma OnlineCycle(rev: Revision, p: Store, now: Timestamp)
    requires PollerTyped(p)
    ensures var r := PerformChecks(rev, p, false, true, Responded(NO_CONTENT), now);
      && r.Ok? && r.value.result
      && Stamp(r.value.store, OFFLINE_SINCE_KEY) == ""
      && WasOnline(r.value.store)
  {
  }

  /** As written, `onlineSince` is never cleared: an offline cycle leaves it alone,
      and a 204 refreshes it to now only when the stored flag already said online
      (so an offline-to-online transition does not set it). */
  lemma AsWrittenOnlineSince(p: Store, radioConnected: bool, probe: Probe, now: Timestamp)
    requires PollerTyped(p) && CycleCompletes(radioConnected, probe)
    ensures var q := PerformChecks(AsWritten, p, false, radioConnected, probe, now).value.store;
      Stamp(q, ONLINE_SINCE_KEY)
        == if radioConnected && ProbeSucceeded(probe) && WasOnline(p) then now else Stamp(p, ONLINE_SINCE_KEY)
  {
  }

  /** Concrete input that shows the dangling `else`: offline with an offline
      timestamp, radio up, probe answers 204. As written `onlineSince` stays ""
      after the transition to online. */
  lemma AsWrittenMissesOnlineTransition(now: Timestamp)
    ensures var p := map[IS_ONLINE_KEY := PBool(false), ONLINE_SINCE_KEY := PString(""),
                         OFFLINE_SINCE_KEY := PString("2024-01-01 10:00:00")];
      var r := PerformChecks(AsWritten, p, false, true, Responded(NO_CONTENT), now);
      r.Ok? && r.value.result && Stamp(r.value.store, ONLINE_SINCE_KEY) == ""
  {
  }

  /** As written, both timestamps can be non-empty at once. */
  lemma AsWrittenBothStampsSet(now: Timestamp)
    ensures var p := map[IS_ONLINE_KEY := PBool(true), ONLINE_SINCE_KEY := PString("t0")];
      var r := PerformChecks(AsWritten, p, false, false, IoFailure, now);
      r.Ok? && Stamp(r.value.store, ONLINE_SINCE_KEY) == "t0" && Stamp(r.value.store, OFFLINE_SINCE_KEY) == now
  {
  }

  /** Intended revision: after every non-backgrounded cycle exactly one timestamp is
      non-empty, the one matching the result. */
  lemma IntendedExactlyOneStamp(p: Store, radioConnected: bool, probe: Probe, now: Timestamp)
    requires PollerTyped(p) && CycleCompletes(radioConnected, probe)
    ensures var q := PerformChecks(Intended, p, false, radioConnected, probe, now).value;
      && (q.result ==> Stamp(q.store, ONLINE_SINCE_KEY) != "" && Stamp(q.store, OFFLINE_SINCE_KEY) == "")
      && (!q.result ==> Stamp(q.store, OFFLINE_SINCE_KEY) != "" && Stamp(q.store, ONLINE_SINCE_KEY) == "")
  {
  }

  /** Intended revision: `onlineSince` is stamped with now on the offline-to-online
      transition and kept while online. */
  lemma IntendedOnlineSince(p: Store, now: Timestamp)
    requires PollerTyped(p)
    ensures var q := PerformChecks(Intended, p, false, true, Responded(NO_CONTENT), now).value.store;
      Stamp(q, ONLINE_SINCE_KEY)
        == if WasOnline(p) && Stamp(p, ONLINE_SINCE_KEY) != "" then Stamp(p, ONLINE_SINCE_KEY) else now
  {
  }

  /** Intended revision reproduces the documented transition: offline with an
      offline timestamp, radio up, 204 gives online since now, offlineSince "". */
  lemma IntendedOnlineTransition(now: Timestamp)
    ensures var p := map[IS_ONLINE_KEY := PBool(false), ONLINE_SINCE_KEY := PString(""),
                         OFFLINE_SINCE_KEY := PString("2024-01-01 10:00:00")];
      var r := PerformChecks(Intended, p, false, true, Responded(NO_CONTENT), now);
      && r.Ok? && r.value.result && WasOnline(r.value.store)
      && Stamp(r.value.store, ONLINE_SINCE_KEY) == now
      && Stamp(r.value.store, OFFLINE_SINCE_KEY) == ""
  {
  }
}

/** The service around the poller: the timer started by `LocalBinder.startCheck`,
    the task that runs `performChecks` and hands its result to
    `setConnectionState`, and a run of successive timer firings. Timer threads,
    broadcast delivery and the clock are not modelled; each firing's platform
    answers arrive as a `Tick`. */
module CheckService {
  import opened Outcomes
  import opened Prefs
  import opened Connectivity

  /** A timer cancelled by the task, or killed by an exception escaping the task. */
  datatype TimerState = Running | Cancelled | Died

  datatype Service = Service(store: Store, onlineTemp: bool, timer: TimerState)

  /** One `sendBroadcast` attempt; a failure to deliver is logged and swallowed. */
  datatype Broadcast = Broadcast(action: string, isOnline: bool, delivered: bool)

  /** The platform's answers during one firing. */
  datatype Tick = Tick(backgrounded: bool, radioConnected: bool, probe: Probe, now: Timestamp, deliveryFails: bool)

  datatype Schedule = Schedule(delayMs: int, periodMs: int)

  /** `startCheck`: a fresh timer firing at a fixed rate, first at once, then every 15 s. */
  function StartCheck(s: Service): (r: (Service, Schedule))
    ensures r.0.timer == Running && r.0.store == s.store && r.0.onlineTemp == s.onlineTemp
    ensures r.1.delayMs == 0 && r.1.periodMs == 15000
  {
    (s.(timer := Running), Schedule(TIMER_DELAY_MS, TIMER_PERIOD_MS))
  }

  /** `setConnectionState`: broadcasts the value whether or not it changed and
      records it in `mOnlineTemp` even when delivery fails. */
  function SetConnectionState(s: Service, connected: bool, deliveryFails: bool): (r: (Service, Broadcast))
    ensures r.0 == s.(onlineTemp := connected)
    ensures r.1.action == BROADCAST_ACTION && r.1.isOnline == connected
    ensures r.1.delivered != deliveryFails
  {
    (s.(onlineTemp := connected), Broadcast(BROADCAST_ACTION, connected, !deliveryFails))
  }

  /** One run of the timer task. An exception from `performChecks` escapes
      `run()`, which ends the timer thread before anything is broadcast. */
  function RunTask(rev: Revision, s: Service, t: Tick): (r: (Service, seq<Broadcast>))
    requires s.timer == Running
    ensures r.0.timer == Died <==> PerformChecks(rev, s.store, t.backgrounded, t.radioConnected, t.probe, t.now).Err?
    ensures r.0.timer != Died ==> |r.1| == 1 && r.1[0].isOnline == r.0.onlineTemp
    ensures r.0.timer == Died ==> r.1 == [] && r.0.store == s.store
    ensures t.backgrounded ==> r.0 == Service(s.store, true, Cancelled) && r.1 == [Broadcast(BROADCAST_ACTION, true, !t.deliveryFails)]
  {
    match PerformChecks(rev, s.store, t.backgrounded, t.radioConnected, t.probe, t.now)
    case Err(_) => (s.(timer := Died), [])
    case Ok(c) =>
      var s1 := s.(store := c.store, timer := if c.timerStopped then Cancelled else s.timer);
      var (s2, b) := SetConnectionState(s1, c.result, t.deliveryFails);
      (s2, [b])
  }

  /** Successive firings; once the timer is cancelled or dead nothing more runs. */
  function RunTicks(rev: Revision, s: Service, ticks: seq<Tick>): (r: (Service, seq<Broadcast>))
    ensures s.timer != Running ==> r == (s, [])
    ensures |r.1| <= |ticks|
    decreases |ticks|
  {
    if ticks == [] || s.timer != Running then (s, [])
    else
      var (s1, b1) := RunTask(rev, s, ticks[0]);
      var (s2, rest) := RunTicks(rev, s1, ticks[1..]);
      (s2, b1 + rest)
  }

  /** A backgrounded firing stops the poller for good: the store is untouched, the
      one broadcast carries `true`, and no later tick changes or sends anything. */
  lemma BackgroundStopsPolling(rev: Revision, s: Service, ticks: seq<Tick>)
    requires s.timer == Running && |ticks| > 0 && ticks[0].backgrounded
    ensures var r := RunTicks(rev, s, ticks);
      && r.0 == Service(s.store, true, Cancelled)
      && r.1 == [Broadcast(BROADCAST_ACTION, true, !ticks[0].deliveryFails)]
  {
  }

  /** A firing whose probe throws something other than `IOException`. */
  predicate Escapes(t: Tick) {
    !t.backgrounded && !CycleCompletes(t.radioConnected, t.probe)
  }

  /** An exception escaping `checkNetwork` ends the timer thread: nothing is
      written or broadcast, and no later firing runs. */
  lemma EscapingProbeKillsTimer(rev: Revision, s: Service, ticks: seq<Tick>)
    requires s.timer == Running && PollerTyped(s.store) && |ticks| > 0 && Escapes(ticks[0])
    ensures RunTicks(rev, s, ticks) == (s.(timer := Died), [])
  {
  }

  /** Starting from a store whose poller keys have the poller's types, the types
      are kept, the timer dies only at a firing whose probe escaped, and while it
      runs every firing broadcasts once. */
  lemma {:induction false} TypedStoreNeverFaults(rev: Revision, s: Service, ticks: seq<Tick>)
    requires s.timer == Running && PollerTyped(s.store)
    ensures var r := RunTicks(rev, s, ticks);
      && (r.0.timer == Died ==> exists i :: 0 <= i < |ticks| && Escapes(ticks[i]))
      && PollerTyped(r.0.store)
      && (r.0.timer == Running ==> |r.1| == |ticks|)
    decreases |ticks|
  {
    if ticks != [] {
      var (s1, b1) := RunTask(rev, s, ticks[0]);
      if s1.timer == Running {
        TypedStoreNeverFaults(rev, s1, ticks[1..]);
        var r := RunTicks(rev, s1, ticks[1..]);
        if r.0.timer == Died {
          var i :| 0 <= i < |ticks[1..]| && Escapes(ticks[1..][i]);
          assert Escapes(ticks[i + 1]);
        }
      } else if s1.timer == Died {
        assert Escapes(ticks[0]);
      }
    }
  }

  /** At most one of the two timestamps is non-empty. */
  predicate AtMostOneStamp(p: Store)
    requires PollerTyped(p)
  {
    Stamp(p, ONLINE_SINCE_KEY) == "" || Stamp(p, OFFLINE_SINCE_KEY) == ""
  }

  /** With the corrected setter the "online since XOR offline since" invariant
      holds after any run of firings that starts from a store satisfying it. */
  lemma {:induction false} IntendedKeepsAtMostOneStamp(s: Service, ticks: seq<Tick>)
    requires PollerTyped(s.store) && AtMostOneStamp(s.store)
    ensures var r := RunTicks(Intended, s, ticks);
      PollerTyped(r.0.store) && AtMostOneStamp(r.0.store)
    decreases |ticks|
  {
    if ticks != [] && s.timer == Running {
      var t := ticks[0];
      var (s1, b1) := RunTask(Intended, s, t);
      if !t.backgrounded && CycleCompletes(t.radioConnected, t.probe) {
        IntendedExactlyOneStamp(s.store, t.radioConnected, t.probe, t.now);
      }
      IntendedKeepsAtMostOneStamp(s1, ticks[1..]);
    }
  }
}

=== FILE: database.dfy ===
/** `QuickDatabase`: the cached SQLite handle and the `singleSelect` cursor
    fold. Opening a database and running a query are platform calls, so their
    outcomes are inputs: whether `openDatabase` succeeds (and with which new
    handle), and what the query did: threw, gave a null cursor, or yielded rows. */
module Database {
  import opened Outcomes
  import Sql

  /** A database handle; `serial` tells distinct opened handles apart. */
  datatype Handle = Handle(serial: nat, open: bool)

  /** The `myDataBase` field: `None` while nothing was ever opened. */
  type Cache = Option<Handle>

  /** What `rawQuery` did on an open handle: threw (a `SQLiteException` for
      malformed SQL or a missing table, say), returned a null cursor, or returned
      a cursor over these values of column 0. */
  datatype Query = QueryThrew | NullCursor | Rows(rows: seq<Option<string>>)

  predicate IsOpen(c: Cache) {
    c.Some? && c.value.open
  }

  /** File the handle is opened from: `getDBPath(context) + "Database.db"`. */
  function DatabaseFile(dataDir: string): (r: string)
    ensures r == Sql.DbPath(dataDir) + "Database.db"
    ensures r[..|dataDir|] == dataDir
  {
    Sql.DbPath(dataDir) + "Database.db"
  }

  /** `getDatabaseInstance`. `attempt` is what `openDatabase` does if it is
      called: `Some(n)` opens a fresh handle numbered `n`, `None` throws. The
      result pairs the new cache with the returned (nullable) handle. */
  function GetDatabaseInstance(c: Cache, attempt: Option<nat>): (r: (Cache, Option<Handle>))
    ensures IsOpen(c) ==> r == (c, c)
    ensures !IsOpen(c) && attempt.Some? ==> r.0 == r.1 == Some(Handle(attempt.value, true))
    ensures !IsOpen(c) && attempt.None? ==> r == (c, None)
    ensures r.1.Some? ==> r.1 == r.0 && IsOpen(r.0)
  {
    if IsOpen(c) then (c, c)
    else match attempt
      case None => (c, None)
      case Some(n) => var h := Some(Handle(n, true)); (h, h)
  }

  /** `closeDatabase`: closes the cached handle only when it is open. */
  function CloseDatabase(c: Cache): (r: Cache)
    ensures !IsOpen(r)
    ensures IsOpen(c) ==> r == Some(Handle(c.value.serial, false))
    ensures !IsOpen(c) ==> r == c
  {
    if IsOpen(c) then Some(c.value.(open := false)) else c
  }

  /** While the handle is open, asking again returns the same handle and never
      consults the open attempt. */
  lemma InstanceIsCached(c: Cache, first: Option<nat>, second: Option<nat>)
    ensures var (c1, h1) := GetDatabaseInstance(c, first);
            h1.Some? ==> GetDatabaseInstance(c1, second) == (c1, h1)
  {
  }

  /** After `closeDatabase` the next request opens a new handle. */
  lemma CloseThenReopen(c: Cache, n: nat)
    ensures GetDatabaseInstance(CloseDatabase(c), Some(n)).1 == Some(Handle(n, true))
  {
  }

  // ------------------------------------------------------------ the cursor fold

  /** How string concatenation renders column 0: a null value becomes the text
      "null", as `String?.plus` does on the JVM. */
  function AsText(v: Option<string>): (r: string)
    ensures v.Some? ==> r == v.value
    ensures v.None? ==> r == "null"
  {
    match v
    case Some(s) => s
    case None => "null"
  }

  /** One `do`-loop step of `singleSelect` for a row whose column 0 is `v`. */
  function Step(acc: string, v: Option<string>, increment: bool, delimiter: string, defaultReturn: string): string
  {
    if increment then acc + AsText(v) + delimiter
    else if v.None? then defaultReturn else v.value
  }

  /** The left fold of `Step` over the rows, starting from `defaultReturn`. */
  function Fold(rows: seq<Option<string>>, increment: bool, delimiter: string, defaultReturn: string): string
    decreases |rows|
  {
    if rows == [] then defaultReturn
    else Step(Fold(rows[..|rows| - 1], increment, delimiter, defaultReturn),
              rows[|rows| - 1], increment, delimiter, defaultReturn)
  }

  /** Reference for increment mode: every row's text followed by the delimiter. */
  function Joined(rows: seq<Option<string>>, delimiter: string): string
    decreases |rows|
  {
    if rows == [] then "" else Joined(rows[..|rows| - 1], delimiter) + AsText(rows[|rows| - 1]) + delimiter
  }

  /** Increment mode: `defaultReturn`, then each row's text plus `delimiter`, in
      row order; a null row contributes "null". */
  lemma {:induction false} IncrementFold(rows: seq<Option<string>>, delimiter: string, defaultReturn: string)
    ensures Fold(rows, true, delimiter, defaultReturn) == defaultReturn + Joined(rows, delimiter)
    decreases |rows|
  {
    if rows != [] {
      var init := rows[..|rows| - 1];
      IncrementFold(init, delimiter, defaultReturn);
      var v := AsText(rows[|rows| - 1]);
      assert defaultReturn + Joined(init, delimiter) + v + delimiter
          == defaultReturn + (Joined(init, delimiter) + v + delimiter);
    }
  }

  /** Last-value mode: only the last row matters; a null there yields the default. */
  lemma LastValueFold(rows: seq<Option<string>>, delimiter: string, defaultReturn: string)
    ensures rows == [] ==> Fold(rows, false, delimiter, defaultReturn) == defaultReturn
    ensures rows != [] && rows[|rows| - 1].None? ==> Fold(rows, false, delimiter, defaultReturn) == defaultReturn
    ensures rows != [] && rows[|rows| - 1].Some? ==> Fold(rows, false, delimiter, defaultReturn) == rows[|rows| - 1].value
  {
  }

  /** `singleSelect`. `getDatabase()` runs first (its result ignored); then
      `myDataBase!!` throws on a null cache, and a query on a closed handle
      throws `IllegalStateException`; an exception from `rawQuery` on an open
      handle escapes, as the `@Throws(Exception::class)` declaration allows.
      Returns the updated cache and the selected string. */
  method SingleSelect(c: Cache, attempt: Option<nat>, query: Query,
                      increment: bool, delimiter: string, defaultReturn: string)
    returns (r: Result<(Cache, string)>)
    ensures var c1 := GetDatabaseInstance(c, attempt).0;
            && (c1.None? <==> r == Err(NullPointer))
            && (c1.Some? && !c1.value.open <==> r == Err(IllegalState))
            && (IsOpen(c1) && query.QueryThrew? <==> r == Err(Uncaught))
            && (r.Ok? <==> IsOpen(c1) && !query.QueryThrew?)
            && (r.Ok? ==> r.value.0 == c1)
    ensures r.Ok? && (query.NullCursor? || query == Rows([])) ==> r.value.1 == defaultReturn
    ensures r.Ok? && query.Rows? && increment ==>
              r.value.1 == defaultReturn + Joined(query.rows, delimiter)
    ensures r.Ok? && query.Rows? && query.rows != [] && !increment ==>
              var last := query.rows[|query.rows| - 1];
                  r.value.1 == if last.None? then defaultReturn else last.value
  {
    var (c1, _) := GetDatabaseInstance(c, attempt);
    if c1.None? {
      return Err(NullPointer);
    }
    if !c1.value.open {
      return Err(IllegalState);
    }
    if query.QueryThrew? {
      return Err(Uncaught);
    }
    var returned := defaultReturn;
    if query.Rows? {
      var rows := query.rows;
      var i := 0;
      while i < |rows|
        invariant 0 <= i <= |rows|
        invariant returned == Fold(rows[..i], increment, delimiter, defaultReturn)
      {
        assert rows[..i + 1][..i] == rows[..i];
        returned := Step(returned, rows[i], increment, delimiter, defaultReturn);
        i := i + 1;
      }
      assert rows[..i] == rows;
      if increment {
        IncrementFold(rows, delimiter, defaultReturn);
      } else {
        LastValueFold(rows, delimiter, defaultReturn);
      }
    }
    return Ok((c1, returned));
  }
}

=== FILE: device.dfy ===
/** Device and connectivity helpers of `QuickAppUtils`. The older objects
    `QuickApp` (QuickApp.kt) and `QuickApp` inside Utils.kt carry the same logic;
    each platform read (`Build`, the locale, the battery intent, `Settings.Secure`,
    the connectivity manager) is an input, with `None` for a read that throws. */
module Device {
  import opened Outcomes
  import opened Prefs
  import opened Extensions
  import Connectivity

  const UNKNOWN_DEVICE := "UNKNOWN"
  const ENGLISH_LANG_KEY := "L"
  const ARABIC_LANG_KEY := "A"

  /** `BatteryManager.BATTERY_PLUGGED_AC`, `_USB`, `_WIRELESS`. */
  const BATTERY_PLUGGED_AC := 1
  const BATTERY_PLUGGED_USB := 2
  const BATTERY_PLUGGED_WIRELESS := 4
  /** The fallback for a missing battery intent or extra. */
  const PLUGGED_MISSING := -1

  // ------------------------------------------------------------ isNetworkAvailable

  /** `isNetworkAvailable`: `radio` is the connectivity manager's answer, `None`
      when the query throws. The timestamp of the current state is written only
      when empty, the other one is cleared, and the radio state is returned. Any
      exception, including a preference read of the wrong type, yields false. */
  function IsNetworkAvailable(p: Store, radio: Option<bool>, now: Connectivity.Timestamp): (r: (Store, bool))
    ensures r.1 <==> radio == Some(true) && HoldsString(p, Connectivity.ONLINE_SINCE_KEY)
  {
    match radio
    case None => (p, false)
    case Some(online) =>
      var sameKey := if online then Connectivity.ONLINE_SINCE_KEY else Connectivity.OFFLINE_SINCE_KEY;
      var otherKey := if online then Connectivity.OFFLINE_SINCE_KEY else Connectivity.ONLINE_SINCE_KEY;
      match Get(p, sameKey)
      case Err(_) => (p, false)
      case Ok(current) =>
        var p1 := if current == "" then AddStringWithId(p, sameKey, now) else p;
        (AddStringWithId(p1, otherKey, ""), online)
  }

  /** After a successful `isNetworkAvailable` the opposite timestamp is "", so the
      two timestamps are never both non-empty; the current one is non-empty and
      keeps its first value across repeated calls in the same state. */
  lemma NetworkAvailableStamps(p: Store, online: bool, now: Connectivity.Timestamp)
    requires Connectivity.PollerTyped(p)
    ensures var q := IsNetworkAvailable(p, Some(online), now).0;
      var sameKey := if online then Connectivity.ONLINE_SINCE_KEY else Connectivity.OFFLINE_SINCE_KEY;
      var otherKey := if online then Connectivity.OFFLINE_SINCE_KEY else Connectivity.ONLINE_SINCE_KEY;
      && IsNetworkAvailable(p, Some(online), now).1 == online
      && Get(q, otherKey) == Ok("")
      && Get(q, sameKey) == Ok(if Get(p, sameKey).value == "" then now else Get(p, sameKey).value)
      && Connectivity.PollerTyped(q)
  {
  }

  /** Repeated calls in the same state keep the first timestamp. */
  lemma NetworkAvailableKeepsFirstStamp(p: Store, online: bool, t1: Connectivity.Timestamp, t2: Connectivity.Timestamp)
    requires Connectivity.PollerTyped(p)
    ensures var q1 := IsNetworkAvailable(p, Some(online), t1).0;
      IsNetworkAvailable(q1, Some(online), t2).0 == q1
  {
    var q1 := IsNetworkAvailable(p, Some(online), t1).0;
    NetworkAvailableStamps(p, online, t1);
    var q2 := IsNetworkAvailable(q1, Some(online), t2).0;
    assert q2 == q1;
  }

  /** A failing query, or a timestamp key of the wrong type, writes nothing. */
  lemma NetworkAvailableFailureIsClean(p: Store, radio: Option<bool>, now: Connectivity.Timestamp)
    requires radio.None? || !HoldsString(p, if radio.value then Connectivity.ONLINE_SINCE_KEY else Connectivity.OFFLINE_SINCE_KEY)
    ensures IsNetworkAvailable(p, radio, now) == (p, false)
  {
  }

  // ------------------------------------------------------------ getDeviceName

  /** `s` begins with `prefix` (Kotlin `startsWith`, case-sensitive). */
  predicate StartsWith(s: string, prefix: string) {
    |prefix| <= |s| && s[..|prefix|] == prefix
  }

  /** `getDeviceName`: a null manufacturer or model throws inside the `try`. */
  function DeviceName(manufacturer: Option<string>, model: Option<string>): (r: string)
    ensures manufacturer.None? || model.None? ==> r == UNKNOWN_DEVICE
    ensures manufacturer.Some? && model.Some? ==>
      StartsWith(r, manufacturer.value) && |model.value| <= |r| && r[|r| - |model.value|..] == model.value
    ensures manufacturer.Some? && model.Some? && StartsWith(model.value, manufacturer.value) ==> r == model.value
    ensures manufacturer.Some? && model.Some? && !StartsWith(model.value, manufacturer.value) ==>
      |r| == |manufacturer.value| + 1 + |model.value| && r[|manufacturer.value|] == ' '
  {
    match (manufacturer, model)
    case (Some(maker), Some(name)) =>
      if StartsWith(name, maker) then name else maker + " " + name
    case _ => UNKNOWN_DEVICE
  }

  // ------------------------------------------------------------ getLanguageIdentifier

  /** `Char.equals(other, ignoreCase = true)` restricted to ASCII letters. */
  predicate CharEqualsIgnoreCase(a: char, b: char) {
    a == b || ('a' <= a <= 'z' && b == a - 'a' + 'A') || ('A' <= a <= 'Z' && b == a - 'A' + 'a')
  }

  /** `s.contains("en", ignoreCase = true)`. */
  predicate ContainsEnIgnoreCase(s: string) {
    exists i :: 0 <= i < |s| - 1 && CharEqualsIgnoreCase(s[i], 'e') && CharEqualsIgnoreCase(s[i + 1], 'n')
  }

  /** `getLanguageIdentifier`: "L" for "l", "en_US" or anything containing "en"
      in any case; "A" otherwise. */
  function LanguageIdentifier(locale: string): (r: string)
    ensures r in {ENGLISH_LANG_KEY, ARABIC_LANG_KEY}
    ensures r == ENGLISH_LANG_KEY <==> locale == "l" || ContainsEnIgnoreCase(locale)
  {
    EnUsContainsEn();
    if locale == "l" || locale == "en_US" || ContainsEnIgnoreCase(locale) then ENGLISH_LANG_KEY
    else ARABIC_LANG_KEY
  }

  /** The explicit "en_US" test is subsumed by the case-insensitive search. */
  lemma EnUsContainsEn()
    ensures ContainsEnIgnoreCase("en_US")
  {
    assert CharEqualsIgnoreCase("en_US"[0], 'e') && CharEqualsIgnoreCase("en_US"[1], 'n');
  }

  // ------------------------------------------------------------ isPluggedIn

  /** The battery-changed sticky intent as `isPluggedIn` sees it. */
  datatype BatteryQuery =
    | QueryThrew                        // registerReceiver threw
    | NoBatteryIntent                   // registerReceiver returned null
    | BatteryIntent(plugged: Option<int>) // the EXTRA_PLUGGED extra, if present

  /** `isPluggedIn`: true exactly for the AC, USB and wireless codes. */
  function IsPluggedIn(q: BatteryQuery): (r: bool)
    ensures r <==> q.BatteryIntent? && q.plugged.Some? && q.plugged.value in {1, 2, 4}
  {
    match q
    case QueryThrew => false
    case NoBatteryIntent => IsPluggedCode(PLUGGED_MISSING)
    case BatteryIntent(None) => IsPluggedCode(PLUGGED_MISSING)
    case BatteryIntent(Some(code)) => IsPluggedCode(code)
  }

  predicate IsPluggedCode(plugged: int) {
    plugged == BATTERY_PLUGGED_AC || plugged == BATTERY_PLUGGED_USB || plugged == BATTERY_PLUGGED_WIRELESS
  }

  // ------------------------------------------------------------ getUUID

  /** `getUUID` with the cached `QuickVariables.UUID`: the platform id is read only
      while the cache is "", and then becomes the cache. Returns (cache, result). */
  function GetUuid(cache: string, androidId: string): (r: (string, string))
    ensures r.0 == r.1
    ensures cache != "" ==> r.1 == cache
    ensures cache == "" ==> r.1 == androidId
  {
    var cache' := if cache == "" then androidId else cache;
    (cache', cache')
  }

  /** Once a non-empty id is cached, every later call returns it, whatever the
      platform would answer. */
  lemma {:induction false} UuidCachedForever(cache: string, ids: seq<string>)
    requires cache != ""
    ensures UuidAfter(cache, ids) == cache
    decreases |ids|
  {
    if ids != [] {
      UuidCachedForever(GetUuid(cache, ids[0]).0, ids[1..]);
    }
  }

  /** The cache after a sequence of `getUUID` calls. */
  function UuidAfter(cache: string, ids: seq<string>): string
    decreases |ids|
  {
    if ids == [] then cache else UuidAfter(GetUuid(cache, ids[0]).0, ids[1..])
  }
}

=== FILE: extensions.dfy ===
/** The Kotlin extension helpers that write and read preferences, `rzPrefVal`,
    and the two revisions of `removeDuplicates`. The newer helpers go through
    `QuickInjectable.pref()`, the older ones through `QuickInjectable.quickPref()`;
    both reach the same `QuickPref` store, so one definition serves both files. */
module Extensions {
  import opened Outcomes
  import opened Prefs

  // ------------------------------------------------------------ addWithId

  /** `Int.addWithId`. */
  function AddIntWithId(p: Store, id: string, value: Int32): (q: Store)
    ensures GetInt(q, id) == Ok(value) && SameExcept(p, q, id)
  {
    SetIntValue(p, id, value)
  }

  /** `String.addWithId`. */
  function AddStringWithId(p: Store, id: string, value: string): (q: Store)
    ensures Get(q, id) == Ok(value) && SameExcept(p, q, id)
  {
    SetString(p, id, value)
  }

  /** `Long.addWithId`: the receiver is never null, so `setLong` cannot fail. */
  function AddLongWithId(p: Store, id: string, value: Int64): (q: Store)
    ensures GetLong(q, id) == Ok(value) && SameExcept(p, q, id)
  {
    SetLong(p, id, Some(value)).value
  }

  /** `Boolean.addWithId`: the receiver is never null, so `setBoolean` cannot fail. */
  function AddBoolWithId(p: Store, id: string, value: bool): (q: Store)
    ensures GetBoolean(q, id) == Ok(value) && SameExcept(p, q, id)
  {
    SetBoolean(p, id, Some(value)).value
  }

  /** `String.addAsDefaultWithId`: an existing key, of any type, is kept. */
  function AddStringAsDefaultWithId(p: Store, id: string, value: string): (q: Store)
    ensures id in p ==> q == p
    ensures id !in p ==> Get(q, id) == Ok(value) && SameExcept(p, q, id)
  {
    SetStringDefault(p, id, value)
  }

  /** `Long.addAsDefaultWithId`: an existing key, of any type, is kept. */
  function AddLongAsDefaultWithId(p: Store, id: string, value: Int64): (q: Store)
    ensures id in p ==> q == p
    ensures id !in p ==> GetLong(q, id) == Ok(value) && SameExcept(p, q, id)
  {
    SetLongDefault(p, id, Some(value)).value
  }

  // ------------------------------------------------------------ readers

  /** `getStringPrefValue`, `getIntPrefValue`, `getLongPrefValue`, `getBoolPrefValue`
      read back exactly what the matching `addWithId` wrote. */
  lemma AddThenGetPrefValue(p: Store, id: string, s: string, i: Int32, l: Int64, b: bool)
    ensures GetStringPrefValue(AddStringWithId(p, id, s), id) == Ok(s)
    ensures GetIntPrefValue(AddIntWithId(p, id, i), id) == Ok(i)
    ensures GetLongPrefValue(AddLongWithId(p, id, l), id) == Ok(l)
    ensures GetBoolPrefValue(AddBoolWithId(p, id, b), id) == Ok(b)
  {
  }

  /** `String.getStringPrefValue`: the stored string, "" when absent. */
  function GetStringPrefValue(p: Store, key: string): (r: Result<string>)
    ensures r.Ok? <==> HoldsString(p, key)
    ensures key in p && p[key].PString? ==> r == Ok(p[key].s)
    ensures key !in p ==> r == Ok("")
  {
    Get(p, key)
  }

  /** `String.getIntPrefValue`: the stored int, -1 when absent. */
  function GetIntPrefValue(p: Store, key: string): (r: Result<Int32>)
    ensures r.Ok? <==> HoldsInt(p, key)
    ensures key in p && p[key].PInt? ==> r == Ok(p[key].i)
    ensures key !in p ==> r == Ok(-1)
  {
    GetInt(p, key)
  }

  /** `String.getLongPrefValue`: the stored long, 0 when absent. */
  function GetLongPrefValue(p: Store, key: string): (r: Result<Int64>)
    ensures r.Ok? <==> HoldsLong(p, key)
    ensures key in p && p[key].PLong? ==> r == Ok(p[key].l)
    ensures key !in p ==> r == Ok(0)
  {
    GetLong(p, key)
  }

  /** `String.getBoolPrefValue`: the stored boolean, false when absent. */
  function GetBoolPrefValue(p: Store, key: string): (r: Result<bool>)
    ensures r.Ok? <==> HoldsBool(p, key)
    ensures key in p && p[key].PBool? ==> r == Ok(p[key].b)
    ensures key !in p ==> r == Ok(false)
  {
    GetBoolean(p, key)
  }

  /** A default write never overwrites: after it, the key reads as before. */
  lemma AddAsDefaultPreserves(p: Store, id: string, s: string, l: Int64)
    requires id in p
    ensures Get(AddStringAsDefaultWithId(p, id, s), id) == Get(p, id)
    ensures GetLong(AddLongAsDefaultWithId(p, id, l), id) == GetLong(p, id)
  {
  }

  // ------------------------------------------------------------ rzPrefVal

  /** The lower-cased simple name of the class `rzPrefVal` switches on:
      it is always `String::class`, never the type parameter. */
  const SWITCHED_CLASS_NAME := "string"

  /** The `when` of `rzPrefVal`, over an arbitrary lower-cased class name. */
  function PrefValByTypeName(name: string, p: Store, key: string): (r: Result<PrefValue>)
    ensures name in {"int", "integer"} ==> r.Ok? == GetInt(p, key).Ok?
    ensures name in {"boolean", "bool"} ==> r.Ok? == GetBoolean(p, key).Ok?
    ensures name == "long" ==> r.Ok? == GetLong(p, key).Ok?
    ensures name !in {"int", "integer", "boolean", "bool", "long"} ==> r.Ok? == Get(p, key).Ok?
    ensures name in {"int", "integer"} && r.Ok? ==> r.value == PInt(GetInt(p, key).value)
    ensures name in {"boolean", "bool"} && r.Ok? ==> r.value == PBool(GetBoolean(p, key).value)
    ensures name == "long" && r.Ok? ==> r.value == PLong(GetLong(p, key).value)
    ensures name !in {"int", "integer", "boolean", "bool", "long"} && r.Ok? ==>
      r.value == PString(Get(p, key).value)
  {
    if name == "string" then
      var s :- Get(p, key); Ok(PString(s))
    else if name == "int" || name == "integer" then
      var i :- GetInt(p, key); Ok(PInt(i))
    else if name == "boolean" || name == "bool" then
      var b :- GetBoolean(p, key); Ok(PBool(b))
    else if name == "long" then
      var l :- GetLong(p, key); Ok(PLong(l))
    else
      var s :- Get(p, key); Ok(PString(s))
  }

  /** `String.rzPrefVal`: whatever type the caller asks for, the string reader runs. */
  function RzPrefVal(p: Store, key: string): (r: Result<PrefValue>)
    ensures r.Ok? ==> r.value.PString?
    ensures Get(p, key).Ok? ==> r == Ok(PString(Get(p, key).value))
    ensures Get(p, key).Err? ==> r == Err(ClassCast)
    ensures HoldsInt(p, key) && key in p ==> r == Err(ClassCast)
  {
    PrefValByTypeName(SWITCHED_CLASS_NAME, p, key)
  }

  // ------------------------------------------------------------ removeDuplicates

  /** Newer `removeDuplicates`: adds every element to a hash set. */
  method RemoveDuplicates(xs: seq<string>) returns (r: set<string>)
    ensures forall x :: x in r <==> x in xs
    ensures |r| <= |xs|
  {
    r := {};
    var i := 0;
    while i < |xs|
      invariant 0 <= i <= |xs|
      invariant r == set j | 0 <= j < i :: xs[j]
      invariant |r| <= i
    {
      assert (set j | 0 <= j < i + 1 :: xs[j]) == r + {xs[i]};
      r := r + {xs[i]};
      i := i + 1;
    }
  }

  /** Older `removeDuplicates`: copies every element into a new list, so the
      result equals the input and duplicates survive. */
  method RemoveDuplicatesCopy(xs: seq<string>) returns (r: seq<string>)
    ensures r == xs
  {
    r := [];
    var i := 0;
    while i < |xs|
      invariant 0 <= i <= |xs|
      invariant r == xs[..i]
    {
      r := r + [xs[i]];
      i := i + 1;
    }
  }

  /** No element occurs twice. */
  ghost predicate DuplicateFree(xs: seq<string>) {
    forall i, j :: 0 <= i < j < |xs| ==> xs[i] != xs[j]
  }

  /** The list version the older doc comment promises: each element once. */
  method RemoveDuplicatesIntended(xs: seq<string>) returns (r: seq<string>)
    ensures DuplicateFree(r)
    ensures forall x :: x in r <==> x in xs
    ensures |r| <= |xs|
  {
    r := [];
    var i := 0;
    while i < |xs|
      invariant 0 <= i <= |xs|
      invariant DuplicateFree(r)
      invariant forall x :: x in r <==> x in xs[..i]
      invariant |r| <= i
    {
      if xs[i] !in r {
        r := r + [xs[i]];
      }
      assert xs[..i + 1] == xs[..i] + [xs[i]];
      i := i + 1;
    }
    assert xs[..i] == xs;
  }

  /** Counterexample for the older copy: a repeated element survives it. */
  method RemoveDuplicatesCopyKeepsDuplicates() returns (r: seq<string>)
    ensures !DuplicateFree(r) && |r| == 2
  {
    r := RemoveDuplicatesCopy(["a", "a"]);
    assert r[0] == r[1];
  }
}

=== FILE: outcomes.dfy ===
/** The failure values the modelled Kotlin code can raise without catching them,
    and a failure-compatible result type so that a chain of calls that may throw
    reads like the sequential code it models (`var x :- Call(...)`). */
module Outcomes {

  /** The unchecked exceptions that escape the modelled operations. */
  datatype Fault =
    | ClassCast     // a preference or parcel entry read as the wrong type
    | NullPointer   // `!!` applied to null
    | IllegalState  // a query issued on a closed database handle
    | Arithmetic    // an integer division by zero
    | Uncaught      // any other exception the code does not catch (e.g. a SecurityException)

  datatype Result<+T> = Ok(value: T) | Err(fault: Fault) {

    predicate IsFailure() {
      Err?
    }

    function PropagateFailure<U>(): Result<U>
      requires Err?
    {
      Err(fault)
    }

    function Extract(): T
      requires Ok?
    {
      value
    }
  }

  /** A Kotlin nullable value: `None` stands for `null`. */
  datatype Option<+T> = None | Some(value: T)
}

=== FILE: parcels.dfy ===
/** The `Parcelable` response models `QuickServiceResponse` and
    `ServiceResponse` (identical logic). A parcel is the sequence of values
    written to it; reading consumes entries from a position. */
module Parcels {
  import opened Outcomes
  import opened Prefs

  /** One value written to a parcel; a string entry may be `null`. */
  datatype Entry = EString(s: Option<string>) | EInt(i: Int32)

  type Parcel = seq<Entry>

  datatype Response = Response(responseDetails: string, errorDetails: string, responseCode: Int32)

  /** The field initialisers, in force before the `init` block reads the parcel. */
  const INITIAL: Response := Response("", "", 500)

  /** `describeContents`. */
  const DESCRIBE_CONTENTS: int := 0

  /** `writeToParcel`: appends the three fields in declaration order. */
  function WriteToParcel(dest: Parcel, r: Response): (p: Parcel)
    ensures |p| == |dest| + 3 && p[..|dest|] == dest
    ensures p[|dest|] == EString(Some(r.responseDetails))
    ensures p[|dest| + 1] == EString(Some(r.errorDetails))
    ensures p[|dest| + 2] == EInt(r.responseCode)
  {
    dest + [EString(Some(r.responseDetails)), EString(Some(r.errorDetails)), EInt(r.responseCode)]
  }

  /** `readString` assigned to a non-null field: past the end the platform
      returns null, and a null makes the assignment throw. */
  predicate HasString(p: Parcel, pos: nat) {
    pos < |p| && p[pos].EString? && p[pos].s.Some?
  }

  function ReadString(p: Parcel, pos: nat): (r: Result<(string, nat)>)
    ensures r.Ok? <==> HasString(p, pos)
    ensures r.Ok? ==> r.value == (p[pos].s.value, pos + 1)
  {
    if pos < |p| && p[pos].EString? then
      match p[pos].s
      case None => Err(NullPointer)
      case Some(v) => Ok((v, pos + 1))
    else if pos < |p| then Err(ClassCast)
    else Err(NullPointer)
  }

  /** `readInt`: past the end the platform returns 0. */
  function ReadInt(p: Parcel, pos: nat): (r: Result<(Int32, nat)>)
    ensures r.Ok? <==> pos >= |p| || p[pos].EInt?
    ensures r.Ok? && pos < |p| ==> r.value == (p[pos].i, pos + 1)
    ensures pos >= |p| ==> r == Ok((0, pos))
  {
    if pos >= |p| then Ok((0, pos))
    else if p[pos].EInt? then Ok((p[pos].i, pos + 1))
    else Err(ClassCast)
  }

  /** The parcel constructor (`createFromParcel`): starts from `INITIAL` and
      overwrites each field by the reads string, string, int. Returns the object
      and the position after the reads. */
  function FromParcel(p: Parcel, pos: nat): (r: Result<(Response, nat)>)
    ensures r.Ok? <==> HasString(p, pos) && HasString(p, pos + 1) && (pos + 2 >= |p| || p[pos + 2].EInt?)
    ensures r.Ok? ==> pos < r.value.1 <= pos + 3
    ensures r.Ok? ==> r.value.0.responseDetails == p[pos].s.value
    ensures r.Ok? ==> r.value.0.errorDetails == p[pos + 1].s.value
    ensures r.Ok? && pos + 2 >= |p| ==> r.value.0.responseCode == 0 && r.value.1 == pos + 2
    ensures r.Ok? && pos + 2 < |p| ==> r.value.0.responseCode == p[pos + 2].i && r.value.1 == pos + 3
  {
    var obj := INITIAL;
    var (details, pos1) :- ReadString(p, pos);
    var obj := obj.(responseDetails := details);
    var (error, pos2) :- ReadString(p, pos1);
    var obj := obj.(errorDetails := error);
    var (code, pos3) :- ReadInt(p, pos2);
    Ok((obj.(responseCode := code), pos3))
  }

  /** Round trip: reading back what `writeToParcel` appended yields the same
      three fields and consumes exactly those entries. */
  lemma WriteThenRead(dest: Parcel, r: Response)
    ensures FromParcel(WriteToParcel(dest, r), |dest|) == Ok((r, |dest| + 3))
  {
  }

  /** Conversely, a successful read of three entries consumed exactly the
      entries `writeToParcel` would write for the object read. */
  lemma ReadThenWrite(p: Parcel, pos: nat)
    requires pos <= |p|
    requires FromParcel(p, pos).Ok? && FromParcel(p, pos).value.1 == pos + 3
    ensures WriteToParcel(p[..pos], FromParcel(p, pos).value.0) == p[..pos + 3]
  {
    var w := WriteToParcel(p[..pos], FromParcel(p, pos).value.0);
    assert forall i :: 0 <= i < |w| ==> w[i] == p[i];
  }

  /** `CREATOR.newArray(size)`: `size` nulls. */
  function NewArray(size: nat): (a: seq<Option<Response>>)
    ensures |a| == size && forall i :: 0 <= i < size ==> a[i].None?
  {
    seq(size, _ => None)
  }
}

=== FILE: prefs.dfy ===
/** The shared-preference store behind `QuickPref`: a flat map from key to a
    tagged scalar. Reads of an absent key yield the getter's typed default; a
    read of a key that holds another type throws, as the platform store does. */
module Prefs {
  import opened Outcomes

  type Int32 = x: int | -0x8000_0000 <= x < 0x8000_0000
  type Int64 = x: int | -0x8000_0000_0000_0000 <= x < 0x8000_0000_0000_0000

  datatype PrefValue =
    | PString(s: string)
    | PInt(i: Int32)
    | PLong(l: Int64)
    | PBool(b: bool)

  type Store = map<string, PrefValue>

  /** Default values returned for a missing key by `get`, `getInt`, `getLong`, `getBoolean`. */
  const STRING_DEFAULT: string := ""
  const INT_DEFAULT: Int32 := -1
  const LONG_DEFAULT: Int64 := 0
  const BOOLEAN_DEFAULT: bool := false

  /** The key is absent or holds a value of the given kind. */
  predicate HoldsString(p: Store, id: string) { id !in p || p[id].PString? }
  predicate HoldsInt(p: Store, id: string) { id !in p || p[id].PInt? }
  predicate HoldsLong(p: Store, id: string) { id !in p || p[id].PLong? }
  predicate HoldsBool(p: Store, id: string) { id !in p || p[id].PBool? }

  /** `p` and `q` agree on every key except `id`. */
  ghost predicate SameExcept(p: Store, q: Store, id: string) {
    forall k :: k != id ==> (k in p <==> k in q) && (k in p ==> q[k] == p[k])
  }

  // ---------------------------------------------------------------- readers

  /** `QuickPref.get`: the stored string, "" when absent. */
  function Get(p: Store, id: string): (r: Result<string>)
    ensures r.Ok? <==> HoldsString(p, id)
    ensures id !in p ==> r == Ok(STRING_DEFAULT)
  {
    if id !in p then Ok(STRING_DEFAULT)
    else if p[id].PString? then Ok(p[id].s)
    else Err(ClassCast)
  }

  /** `QuickPref.getInt`: the stored int, -1 when absent. */
  function GetInt(p: Store, id: string): (r: Result<Int32>)
    ensures r.Ok? <==> HoldsInt(p, id)
    ensures id !in p ==> r == Ok(INT_DEFAULT)
  {
    if id !in p then Ok(INT_DEFAULT)
    else if p[id].PInt? then Ok(p[id].i)
    else Err(ClassCast)
  }

  /** `QuickPref.getLong`: the stored long, 0 when absent. */
  function GetLong(p: Store, id: string): (r: Result<Int64>)
    ensures r.Ok? <==> HoldsLong(p, id)
    ensures id !in p ==> r == Ok(LONG_DEFAULT)
  {
    if id !in p then Ok(LONG_DEFAULT)
    else if p[id].PLong? then Ok(p[id].l)
    else Err(ClassCast)
  }

  /** `QuickPref.getBoolean`: the stored boolean, false when absent. */
  function GetBoolean(p: Store, id: string): (r: Result<bool>)
    ensures r.Ok? <==> HoldsBool(p, id)
    ensures id !in p ==> r == Ok(BOOLEAN_DEFAULT)
  {
    if id !in p then Ok(BOOLEAN_DEFAULT)
    else if p[id].PBool? then Ok(p[id].b)
    else Err(ClassCast)
  }

  /** `checkSharedPrefValueIfExist`: the key is present, whatever its type. When
      it is not, every typed getter returns its default; when it is, exactly one
      typed getter reads the stored value. */
  function CheckSharedPrefValueIfExist(p: Store, id: string): (r: bool)
    ensures !r ==>
      Get(p, id) == Ok(STRING_DEFAULT) && GetInt(p, id) == Ok(INT_DEFAULT) &&
      GetLong(p, id) == Ok(LONG_DEFAULT) && GetBoolean(p, id) == Ok(BOOLEAN_DEFAULT)
    ensures r ==>
      (if Get(p, id).Ok? then 1 else 0) + (if GetInt(p, id).Ok? then 1 else 0) +
      (if GetLong(p, id).Ok? then 1 else 0) + (if GetBoolean(p, id).Ok? then 1 else 0) == 1
  {
    id in p
  }

  // ---------------------------------------------------------------- writers

  /** `setString`: the matching read returns the value; no other key changes. */
  function SetString(p: Store, id: string, value: string): (q: Store)
    ensures Get(q, id) == Ok(value)
    ensures SameExcept(p, q, id)
  {
    p[id := PString(value)]
  }

  /** `setIntValue`. */
  function SetIntValue(p: Store, id: string, value: Int32): (q: Store)
    ensures GetInt(q, id) == Ok(value)
    ensures SameExcept(p, q, id)
  {
    p[id := PInt(value)]
  }

  /** `setLong`: a null value fails at `value!!` before anything is written. */
  function SetLong(p: Store, id: string, value: Option<Int64>): (r: Result<Store>)
    ensures value.None? <==> r == Err(NullPointer)
    ensures value.Some? ==> r.Ok? && GetLong(r.value, id) == Ok(value.value)
    ensures r.Ok? ==> SameExcept(p, r.value, id)
  {
    match value
    case None => Err(NullPointer)
    case Some(v) => Ok(p[id := PLong(v)])
  }

  /** `setBoolean`: a null value fails at `value!!` before anything is written. */
  function SetBoolean(p: Store, id: string, value: Option<bool>): (r: Result<Store>)
    ensures value.None? <==> r == Err(NullPointer)
    ensures value.Some? ==> r.Ok? && GetBoolean(r.value, id) == Ok(value.value)
    ensures r.Ok? ==> SameExcept(p, r.value, id)
  {
    match value
    case None => Err(NullPointer)
    case Some(v) => Ok(p[id := PBool(v)])
  }

  /** `setStringDefault`: writes only when the key is absent under every type. */
  function SetStringDefault(p: Store, id: string, value: string): (q: Store)
    ensures CheckSharedPrefValueIfExist(p, id) ==> q == p
    ensures !CheckSharedPrefValueIfExist(p, id) ==> q == SetString(p, id, value)
    ensures id in q
  {
    if !CheckSharedPrefValueIfExist(p, id) then p[id := PString(value)] else p
  }

  /** `setLongDefault`: writes only when the key is absent; `value!!` is only
      evaluated in that case, so a null value fails only for an absent key. */
  function SetLongDefault(p: Store, id: string, value: Option<Int64>): (r: Result<Store>)
    ensures CheckSharedPrefValueIfExist(p, id) ==> r == Ok(p)
    ensures !CheckSharedPrefValueIfExist(p, id) ==> r == SetLong(p, id, value)
  {
    if !CheckSharedPrefValueIfExist(p, id) then SetLong(p, id, value) else Ok(p)
  }

  // ---------------------------------------------------------------- lemmas

  /** Every typed getter returns its default for a key that was never written. */
  lemma AbsentKeyDefaults(p: Store, id: string)
    requires !CheckSharedPrefValueIfExist(p, id)
    ensures Get(p, id) == Ok("") && GetInt(p, id) == Ok(-1)
    ensures GetLong(p, id) == Ok(0) && GetBoolean(p, id) == Ok(false)
  {
  }

  /** Writes to one key are last-write-wins: a second string write hides the first. */
  lemma LastWriteWins(p: Store, id: string, first: string, second: string)
    ensures SetString(SetString(p, id, first), id, second) == SetString(p, id, second)
  {
  }

  /** Both default setters are idempotent: a second call is a no-op. */
  lemma DefaultSettersIdempotent(p: Store, id: string, s: string, l: Int64)
    ensures SetStringDefault(SetStringDefault(p, id, s), id, s) == SetStringDefault(p, id, s)
    ensures SetLongDefault(p, id, Some(l)).Ok?
    ensures SetLongDefault(SetLongDefault(p, id, Some(l)).value, id, Some(l)) == SetLongDefault(p, id, Some(l))
  {
  }

  /** A default setter skips a key that holds a value of a different type, so the
      matching typed read then throws instead of returning the default. */
  lemma DefaultSkipsOtherType(p: Store, id: string, s: string, b: bool)
    requires p == map[id := PBool(b)]
    ensures SetStringDefault(p, id, s) == p
    ensures Get(SetStringDefault(p, id, s), id) == Err(ClassCast)
  {
  }
}

=== FILE: rapid_click.dfy ===
/** The rapid-click guard shared by `QuickClickGuard.guard`,
    `QuickRapidIdler.throttle` and `CodeThrottle.throttle`: the three classes
    carry the same two fields and the same rule. Time is the caller's
    `System.currentTimeMillis()` reading, passed in. */
module RapidClick {

  const MIN_INTERVAL := 800

  datatype Guard = Guard(lastEventTime: int, initialized: bool)

  /** A new guard: the construction time is recorded but not yet trusted. */
  function Create(now: int): (g: Guard)
    ensures !g.initialized
  {
    Guard(now, false)
  }

  /** The guarded block runs for this event time. */
  predicate Accepts(g: Guard, eventTime: int) {
    eventTime - g.lastEventTime > MIN_INTERVAL || !g.initialized
  }

  /** One call: returns the new guard and whether the block ran. */
  function Step(g: Guard, eventTime: int): (r: (Guard, bool))
    ensures r.1 == Accepts(g, eventTime)
    ensures r.1 ==> r.0 == Guard(eventTime, true)
    ensures !r.1 ==> r.0 == g
  {
    if Accepts(g, eventTime) then (Guard(eventTime, true), true) else (g, false)
  }

  /** The first call runs whatever the elapsed time; `initialized` then stays true. */
  lemma FirstCallRuns(created: int, eventTime: int, later: int)
    ensures Step(Create(created), eventTime).1
    ensures Step(Step(Create(created), eventTime).0, later).0.initialized
  {
  }

  /** A later call runs iff strictly more than `MIN_INTERVAL` elapsed since the last accepted one. */
  lemma LaterCallRule(g: Guard, eventTime: int)
    requires g.initialized
    ensures Step(g, eventTime).1 <==> eventTime - g.lastEventTime > MIN_INTERVAL
  {
  }

  /** A sequence of calls: the final guard and the event times whose block ran. */
  function Run(g: Guard, times: seq<int>): (r: (Guard, seq<int>))
    ensures |r.1| <= |times|
    ensures forall x :: x in r.1 ==> x in times
    ensures r.0.initialized <==> g.initialized || |r.1| > 0
    ensures |r.1| == 0 ==> r.0 == g
    ensures |r.1| > 0 ==> r.0 == Guard(r.1[|r.1| - 1], true)
    ensures forall i :: 0 < i < |r.1| ==> r.1[i] - r.1[i - 1] > MIN_INTERVAL
    ensures |r.1| > 0 && g.initialized ==> r.1[0] - g.lastEventTime > MIN_INTERVAL
    decreases |times|
  {
    if times == [] then (g, [])
    else
      var (g1, ran) := Step(g, times[0]);
      var (g2, rest) := Run(g1, times[1..]);
      (g2, (if ran then [times[0]] else []) + rest)
  }

  /** Any two executions are more than `MIN_INTERVAL` apart in the supplied time. */
  lemma {:induction false} AcceptedSpacing(g: Guard, times: seq<int>, i: int, j: int)
    requires 0 <= i < j < |Run(g, times).1|
    ensures Run(g, times).1[j] - Run(g, times).1[i] > MIN_INTERVAL
    decreases j - i
  {
    var acc := Run(g, times).1;
    if j > i + 1 {
      AcceptedSpacing(g, times, i, j - 1);
    }
  }

  /** Extending a run by one call: that call runs exactly when the guard left by
      the earlier calls accepts it, and then it is appended to the executions. */
  lemma {:induction false} RunExtend(g: Guard, times: seq<int>, x: int)
    ensures var (g1, ran) := Step(Run(g, times).0, x);
      Run(g, times + [x]) == (g1, Run(g, times).1 + (if ran then [x] else []))
    decreases |times|
  {
    if times == [] {
      assert times + [x] == [x] && [x][1..] == [];
      var (g1, ran) := Step(g, x);
      var last: seq<int> := if ran then [x] else [];
      assert Run(g, [x]) == (g1, last + []);
      assert last + [] == [] + last;
    } else {
      var (h, ran) := Step(g, times[0]);
      assert (times + [x])[0] == times[0];
      assert (times + [x])[1..] == times[1..] + [x];
      RunExtend(h, times[1..], x);
      var pre: seq<int> := if ran then [times[0]] else [];
      var inner := Run(h, times[1..]);
      var (g1, ran1) := Step(inner.0, x);
      var last: seq<int> := if ran1 then [x] else [];
      assert Run(g, times) == (inner.0, pre + inner.1);
      assert Run(g, times + [x]) == (g1, pre + (inner.1 + last));
      assert pre + (inner.1 + last) == (pre + inner.1) + last;
    }
  }

  /** Conversely, no eligible call is dropped: when each call comes more than
      `MIN_INTERVAL` after the previous one and the first is accepted, every
      call runs. */
  lemma {:induction false} SpacedCallsAllRun(g: Guard, times: seq<int>)
    requires |times| > 0 ==> Accepts(g, times[0])
    requires forall i :: 0 < i < |times| ==> times[i] - times[i - 1] > MIN_INTERVAL
    ensures Run(g, times).1 == times
    decreases |times|
  {
    if times != [] {
      var g1 := Step(g, times[0]).0;
      assert g1 == Guard(times[0], true);
      var rest := times[1..];
      if |rest| > 0 {
        assert rest[0] - g1.lastEventTime > MIN_INTERVAL;
      }
      forall i | 0 < i < |rest|
        ensures rest[i] - rest[i - 1] > MIN_INTERVAL
      {
        assert rest[i] == times[i + 1] && rest[i - 1] == times[i];
      }
      SpacedCallsAllRun(g1, rest);
      assert [times[0]] + rest == times;
    }
  }
}

=== FILE: sample_size.dfy ===
/** The `inSampleSize` computation in `decodeFile` (utils/QuickFileUtils.kt):
    `scale` starts at 1 and doubles while both halved bounds still cover the
    requested size. `scale` is a Kotlin `Int`, so the doubling wraps at 2^31 and
    the quotients truncate toward zero; a wrapped `scale` of 0 makes the next
    division throw `ArithmeticException`, which `decodeFile` does not catch. */
module SampleSize {
  import opened Outcomes
  import opened Prefs

  /** Two's-complement reduction of an integer to a Kotlin `Int`. */
  function Wrap32(x: int): (r: Int32)
    ensures (r - x) % 0x1_0000_0000 == 0
  {
    var m := x % 0x1_0000_0000;
    if m < 0x8000_0000 then m else m - 0x1_0000_0000
  }

  /** Kotlin `Int` division: the quotient truncates toward zero. */
  function Quot(a: int, b: int): (q: int)
    requires b != 0
    ensures (a >= 0) == (b > 0) ==> q == Abs(a) / Abs(b)
    ensures (a >= 0) != (b > 0) ==> q == -(Abs(a) / Abs(b))
  {
    if (a >= 0) == (b > 0) then Abs(a) / Abs(b) else -(Abs(a) / Abs(b))
  }

  function Abs(a: int): nat { if a < 0 then -a else a }

  function Pow2(k: nat): (r: nat)
    ensures r >= 1
  {
    if k == 0 then 1 else 2 * Pow2(k - 1)
  }

  /** The value of `scale` after `k` doublings, as the `Int` it is. */
  function ScaleAt(k: nat): (r: Int32)
    ensures k <= 30 ==> r == Pow2(k)
    ensures k == 31 ==> r == -0x8000_0000
    ensures k >= 32 ==> r == 0
  {
    if k <= 30 then Pow2Bound(k); Pow2(k) else if k == 31 then -0x8000_0000 else 0
  }

  lemma {:induction false} Pow2Add(a: nat, b: nat)
    ensures Pow2(a + b) == Pow2(a) * Pow2(b)
    decreases a
  {
    if a > 0 {
      Pow2Add(a - 1, b);
    }
  }

  lemma Pow2Thirty()
    ensures Pow2(30) == 0x4000_0000
  {
    assert Pow2(1) == 2;
    assert Pow2(2) == 4;
    assert Pow2(3) == 8;
    assert Pow2(4) == 16;
    assert Pow2(5) == 32;
    Pow2Add(5, 5);
    Pow2Add(10, 10);
    Pow2Add(20, 10);
  }

  lemma Pow2Bound(k: nat)
    requires k <= 30
    ensures Pow2(k) <= 0x4000_0000
  {
    Pow2Monotone(k, 30);
    Pow2Thirty();
  }

  /** `scale *= 2` on an `Int` takes `ScaleAt(k)` to `ScaleAt(k + 1)`. */
  lemma DoublingWraps(k: nat)
    ensures Wrap32(2 * ScaleAt(k)) == ScaleAt(k + 1)
  {
    if k < 30 {
      Pow2Bound(k + 1);
      assert 2 * ScaleAt(k) == Pow2(k + 1);
    } else if k == 30 {
      Pow2Thirty();
      assert 2 * ScaleAt(k) == 0x8000_0000;
    } else if k == 31 {
      assert 2 * ScaleAt(k) == -0x1_0000_0000;
    }
  }

  /** The loop condition of `decodeFile` at a given non-zero `scale`. */
  predicate KeepsHalving(outWidth: Int32, outHeight: Int32, width: Int32, height: Int32, scale: Int32)
    requires scale != 0
  {
    Quot(Quot(outWidth, scale), 2) >= width && Quot(Quot(outHeight, scale), 2) >= height
  }

  /** Once `scale` is 2^30, a positive request can no longer be met. */
  lemma LastHalving(outWidth: Int32, outHeight: Int32, width: Int32, height: Int32)
    requires width > 0 || height > 0
    ensures !KeepsHalving(outWidth, outHeight, width, height, ScaleAt(30))
  {
    Pow2Thirty();
    HalvedAtMostZero(outWidth);
    HalvedAtMostZero(outHeight);
  }

  lemma HalvedAtMostZero(o: Int32)
    ensures Quot(Quot(o, 0x4000_0000), 2) <= 0
  {
    assert Abs(o) <= 0x8000_0000;
    var q := Quot(o, 0x4000_0000);
    assert Abs(o) / 0x4000_0000 <= 2;
    assert -2 <= q <= 1;
  }

  /** A bound of at least -1 halves to a non-negative quotient at any scale. */
  lemma HalvedNonNegative(o: Int32, scale: Int32)
    requires o >= -1 && (scale > 0 || scale == -0x8000_0000)
    ensures Quot(Quot(o, scale), 2) >= 0
  {
    var q := Quot(o, scale);
    if o == -1 {
      assert Abs(o) / Abs(scale) <= 1;
      assert -1 <= q <= 1;
    } else if scale > 0 {
      assert q == o / scale;
    } else {
      assert Abs(o) < Abs(scale);
      assert q == 0;
    }
  }

  /** Bounds the platform reports are -1 (undecodable) or a real size; for those,
      a request of at most 0 in both directions never stops the doubling. */
  lemma AlwaysHalving(outWidth: Int32, outHeight: Int32, width: Int32, height: Int32, k: nat)
    requires outWidth >= -1 && outHeight >= -1 && width <= 0 && height <= 0
    requires k < 32
    ensures KeepsHalving(outWidth, outHeight, width, height, ScaleAt(k))
  {
    HalvedNonNegative(outWidth, ScaleAt(k));
    HalvedNonNegative(outHeight, ScaleAt(k));
  }

  /** The sample-size loop. `Ok(scale)` is what `inSampleSize` is set to;
      `Err(Arithmetic)` is the division by a wrapped `scale` of 0. */
  method SampleScale(outWidth: Int32, outHeight: Int32, width: Int32, height: Int32) returns (r: Result<Int32>)
    ensures r.Ok? ==> r.value >= 1 && exists k: nat :: k <= 30 && r.value == Pow2(k)
    ensures r.Ok? ==> !KeepsHalving(outWidth, outHeight, width, height, r.value)
    ensures r.Ok? ==> forall k: nat :: k <= 30 && Pow2(k) < r.value ==>
                        KeepsHalving(outWidth, outHeight, width, height, Pow2(k))
    ensures !KeepsHalving(outWidth, outHeight, width, height, 1) <==> r == Ok(1)
    ensures width > 0 || height > 0 ==> r.Ok?
    ensures r.Err? ==> r.fault == Arithmetic && width <= 0 && height <= 0
    ensures outWidth >= -1 && outHeight >= -1 && width <= 0 && height <= 0 ==> r == Err(Arithmetic)
  {
    var scale: Int32 := 1;
    var k: nat := 0;
    while true
      invariant k <= 32 && scale == ScaleAt(k)
      invariant k > 30 ==> width <= 0 && height <= 0
      invariant forall j: nat :: j < k ==> KeepsHalving(outWidth, outHeight, width, height, ScaleAt(j))
      decreases 32 - k
    {
      if scale == 0 {
        return Err(Arithmetic);
      }
      if !KeepsHalving(outWidth, outHeight, width, height, scale) {
        StopFacts(outWidth, outHeight, width, height, k);
        return Ok(scale);
      }
      if k == 30 && (width > 0 || height > 0) {
        LastHalving(outWidth, outHeight, width, height);
        assert false;
      }
      DoublingWraps(k);
      scale := Wrap32(scale * 2);
      k := k + 1;
    }
  }

  /** What holds when the loop stops at the `k`-th scale: that scale is a power of
      two no greater than 2^30, the condition held at every smaller power of two,
      and the inputs are not ones for which the condition never fails. */
  lemma StopFacts(outWidth: Int32, outHeight: Int32, width: Int32, height: Int32, k: nat)
    requires k <= 32 && ScaleAt(k) != 0
    requires k > 30 ==> width <= 0 && height <= 0
    requires forall j: nat :: j < k ==> KeepsHalving(outWidth, outHeight, width, height, ScaleAt(j))
    requires !KeepsHalving(outWidth, outHeight, width, height, ScaleAt(k))
    ensures k <= 30
    ensures forall j: nat :: j <= 30 && Pow2(j) < ScaleAt(k) ==> KeepsHalving(outWidth, outHeight, width, height, Pow2(j))
    ensures k > 0 ==> KeepsHalving(outWidth, outHeight, width, height, 1)
    ensures !(outWidth >= -1 && outHeight >= -1 && width <= 0 && height <= 0)
  {
    var scale := ScaleAt(k);
    assert k <= 30;
    assert forall j: nat :: j <= 30 && Pow2(j) < scale ==> j < k by {
      forall j: nat | j <= 30 && Pow2(j) < scale
        ensures j < k
      {
        if j >= k { Pow2Monotone(k, j); }
      }
    }
    forall j: nat | j <= 30 && Pow2(j) < scale
      ensures KeepsHalving(outWidth, outHeight, width, height, Pow2(j))
    {
      assert ScaleAt(j) == Pow2(j);
    }
    assert k > 0 ==> KeepsHalving(outWidth, outHeight, width, height, ScaleAt(0));
    if outWidth >= -1 && outHeight >= -1 && width <= 0 && height <= 0 {
      AlwaysHalving(outWidth, outHeight, width, height, k);
    }
  }

  lemma {:induction false} Pow2Monotone(i: nat, j: nat)
    requires i <= j
    ensures Pow2(i) <= Pow2(j)
    decreases j - i
  {
    if i < j {
      Pow2Monotone(i, j - 1);
    }
  }

  /** `decodeFile`: a missing file is caught and yields null; otherwise the image
      is decoded with the computed sample size, which is what is returned here.
      The bounds come from the platform's bounds-only decode. */
  method DecodeFile(fileExists: bool, outWidth: Int32, outHeight: Int32, width: Int32, height: Int32)
    returns (r: Result<Option<Int32>>)
    ensures !fileExists ==> r == Ok(None)
    ensures fileExists && (width > 0 || height > 0) ==> r.Ok? && r.value.Some?
    ensures fileExists && r.Ok? ==>
              r.value.Some? && r.value.value >= 1 && !KeepsHalving(outWidth, outHeight, width, height, r.value.value)
  {
    if !fileExists {
      return Ok(None);
    }
    var scale :- SampleScale(outWidth, outHeight, width, height);
    return Ok(Some(scale));
  }
}

=== FILE: sanitise.dfy ===
/** `removeIllegalSQLChars` in utils/QuickUtils.kt: five successive
    `String.replace` passes. Each pass is modelled as written, then proved equal
    to a single left-to-right character map, from which the properties follow. */
module Sanitise {

  /** `String.replace(target, replacement)` for a one-character target: the
      target is gone, and every other output character came from the input or
      from the replacement. */
  function ReplaceChar(s: string, target: char, replacement: string): (r: string)
    ensures forall c :: c in r ==> (c in s && c != target) || c in replacement
  {
    if s == [] then []
    else (if s[0] == target then replacement else [s[0]]) + ReplaceChar(s[1..], target, replacement)
  }

  /** `removeIllegalSQLChars`, pass by pass. None of `' & # " ^` survives, and
      every output character is an input character or the space that replaced
      a quote. */
  function RemoveIllegalSqlChars(value: string): (r: string)
    ensures forall c :: c in r ==> !Illegal(c) && (c in value || c == ' ')
  {
    var v1 := ReplaceChar(value, '\'', " ");
    var v2 := ReplaceChar(v1, '&', "");
    var v3 := ReplaceChar(v2, '#', "");
    var v4 := ReplaceChar(v3, '"', "");
    ReplaceChar(v4, '^', "")
  }

  /** The four characters deleted outright. */
  predicate Dropped(c: char) {
    c == '&' || c == '#' || c == '"' || c == '^'
  }

  /** The five characters the function exists to remove. */
  predicate Illegal(c: char) {
    c == '\'' || Dropped(c)
  }

  /** Reference definition: each `'` becomes one space, the four others vanish,
      anything else is kept, in order. */
  function CleanChar(c: char): (r: string)
    ensures forall d :: d in r ==> !Illegal(d)
  {
    if c == '\'' then " " else if Dropped(c) then "" else [c]
  }

  function Clean(s: string): string {
    if s == [] then [] else CleanChar(s[0]) + Clean(s[1..])
  }

  function DroppedCount(s: string): nat {
    if s == [] then 0 else (if Dropped(s[0]) then 1 else 0) + DroppedCount(s[1..])
  }

  // ------------------------------------------------------------ pass algebra

  lemma {:induction false} ReplaceCharAppend(a: string, b: string, t: char, r: string)
    ensures ReplaceChar(a + b, t, r) == ReplaceChar(a, t, r) + ReplaceChar(b, t, r)
    decreases |a|
  {
    if a == [] {
      assert a + b == b;
    } else {
      assert (a + b)[0] == a[0];
      assert (a + b)[1..] == a[1..] + b;
      ReplaceCharAppend(a[1..], b, t, r);
    }
  }

  /** The five passes, applied to a single character. */
  lemma ReplaceCharSingle(c: char, t: char, r: string)
    ensures ReplaceChar([c], t, r) == if c == t then r else [c]
  {
    assert [c][1..] == [];
    assert ReplaceChar([], t, r) == [];
  }

  lemma PassesOnChar(c: char)
    ensures RemoveIllegalSqlChars([c]) == CleanChar(c)
  {
    ReplaceCharSingle(c, '\'', " ");
    var v1 := ReplaceChar([c], '\'', " ");
    if c == '\'' {
      assert v1 == [' '];
      ReplaceCharSingle(' ', '&', "");
      ReplaceCharSingle(' ', '#', "");
      ReplaceCharSingle(' ', '"', "");
      ReplaceCharSingle(' ', '^', "");
    } else {
      assert v1 == [c];
      ReplaceCharSingle(c, '&', "");
      var v2 := ReplaceChar(v1, '&', "");
      if c == '&' {
        assert v2 == [];
      } else {
        ReplaceCharSingle(c, '#', "");
        var v3 := ReplaceChar(v2, '#', "");
        if c == '#' {
          assert v3 == [];
        } else {
          ReplaceCharSingle(c, '"', "");
          var v4 := ReplaceChar(v3, '"', "");
          if c == '"' {
            assert v4 == [];
          } else {
            ReplaceCharSingle(c, '^', "");
          }
        }
      }
    }
  }

  /** The passes distribute over concatenation, since every pass does. */
  lemma PassesAppend(a: string, b: string)
    ensures RemoveIllegalSqlChars(a + b) == RemoveIllegalSqlChars(a) + RemoveIllegalSqlChars(b)
  {
    var a1, b1 := ReplaceChar(a, '\'', " "), ReplaceChar(b, '\'', " ");
    ReplaceCharAppend(a, b, '\'', " ");
    var a2, b2 := ReplaceChar(a1, '&', ""), ReplaceChar(b1, '&', "");
    ReplaceCharAppend(a1, b1, '&', "");
    var a3, b3 := ReplaceChar(a2, '#', ""), ReplaceChar(b2, '#', "");
    ReplaceCharAppend(a2, b2, '#', "");
    var a4, b4 := ReplaceChar(a3, '"', ""), ReplaceChar(b3, '"', "");
    ReplaceCharAppend(a3, b3, '"', "");
    ReplaceCharAppend(a4, b4, '^', "");
  }

  /** The five sequential replaces equal the single-pass reference map. */
  lemma {:induction false} RemoveIllegalIsClean(s: string)
    ensures RemoveIllegalSqlChars(s) == Clean(s)
    decreases |s|
  {
    if s == [] {
    } else {
      assert s == [s[0]] + s[1..];
      PassesAppend([s[0]], s[1..]);
      PassesOnChar(s[0]);
      RemoveIllegalIsClean(s[1..]);
    }
  }

  // ------------------------------------------------------------ properties of Clean

  lemma {:induction false} CleanAppend(a: string, b: string)
    ensures Clean(a + b) == Clean(a) + Clean(b)
    decreases |a|
  {
    if a == [] {
      assert a + b == b;
    } else {
      assert (a + b)[0] == a[0];
      assert (a + b)[1..] == a[1..] + b;
      CleanAppend(a[1..], b);
    }
  }

  lemma {:induction false} CleanHasNoIllegal(s: string)
    ensures forall c :: c in Clean(s) ==> !Illegal(c)
    decreases |s|
  {
    if s != [] {
      CleanHasNoIllegal(s[1..]);
    }
  }

  lemma {:induction false} CleanLength(s: string)
    ensures |Clean(s)| == |s| - DroppedCount(s)
    decreases |s|
  {
    if s != [] {
      CleanLength(s[1..]);
    }
  }

  /** On a string free of the five characters, the map is the identity. */
  lemma {:induction false} CleanIdentity(s: string)
    requires forall c :: c in s ==> !Illegal(c)
    ensures Clean(s) == s
    decreases |s|
  {
    if s != [] {
      assert s[0] in s;
      assert forall c :: c in s[1..] ==> c in s;
      CleanIdentity(s[1..]);
      assert s == [s[0]] + s[1..];
    }
  }

  // ------------------------------------------------------------ the promised properties

  /** The output is shorter than the input by exactly the deleted characters. */
  lemma SanitisedLength(s: string)
    ensures |RemoveIllegalSqlChars(s)| == |s| - DroppedCount(s)
  {
    RemoveIllegalIsClean(s);
    CleanLength(s);
  }

  /** Strings free of the five characters are returned unchanged. */
  lemma CleanStringUnchanged(s: string)
    requires forall c :: c in s ==> !Illegal(c)
    ensures RemoveIllegalSqlChars(s) == s
  {
    RemoveIllegalIsClean(s);
    CleanIdentity(s);
  }

  /** Applying the function twice is the same as applying it once. */
  lemma Idempotent(s: string)
    ensures RemoveIllegalSqlChars(RemoveIllegalSqlChars(s)) == RemoveIllegalSqlChars(s)
  {
    CleanStringUnchanged(RemoveIllegalSqlChars(s));
  }

  /** Character by character: a quote becomes one space, and a character that is
      not one of the five survives in place relative to its neighbours. */
  lemma SanitiseSplits(a: string, c: char, b: string)
    ensures RemoveIllegalSqlChars(a + [c] + b)
         == RemoveIllegalSqlChars(a) + CleanChar(c) + RemoveIllegalSqlChars(b)
  {
    RemoveIllegalIsClean(a + [c] + b);
    RemoveIllegalIsClean(a);
    RemoveIllegalIsClean(b);
    CleanAppend(a + [c], b);
    CleanAppend(a, [c]);
    assert Clean([c]) == CleanChar(c) by { assert [c][1..] == []; }
  }
}

=== FILE: sql.dfy ===
/** The SQL string builders. `simpleSelect`, `complexSelect` and `distinctSelect`
    exist in three textually identical copies (utils/QuickDBUtils.kt,
    QuickDBUtils.kt, and `createSimpleSelect`/`createComplexSelect`/
    `createDistinctSelect` in Utils.kt); each is modelled once. Arguments are
    spliced in verbatim, with no escaping. The debug log is left out. */
module Sql {

  /** An optional clause: the text that introduces it and its argument. */
  datatype Clause = Clause(keyword: string, arg: string)

  /** The clauses whose argument is non-empty, in their original order. */
  function Present(clauses: seq<Clause>): (r: seq<Clause>)
    ensures |r| <= |clauses|
    ensures forall c :: c in r ==> c in clauses && c.arg != ""
    ensures forall c :: c in clauses && c.arg != "" ==> c in r
  {
    if clauses == [] then []
    else (if clauses[0].arg != "" then [clauses[0]] else []) + Present(clauses[1..])
  }

  /** The clauses written one after the other, each as keyword then argument. */
  function Text(clauses: seq<Clause>): string {
    if clauses == [] then "" else clauses[0].keyword + clauses[0].arg + Text(clauses[1..])
  }

  /** Reference form of every builder: a fixed head followed by the present clauses. */
  function Render(head: string, clauses: seq<Clause>): string {
    head + Text(Present(clauses))
  }

  /** What one clause adds to the text: its keyword and argument, or nothing. */
  function Piece(c: Clause): string {
    if c.arg != "" then c.keyword + c.arg else ""
  }

  lemma {:induction false} TextAppend(a: seq<Clause>, b: seq<Clause>)
    ensures Text(a + b) == Text(a) + Text(b)
    decreases |a|
  {
    if a == [] {
      assert a + b == b;
    } else {
      assert (a + b)[0] == a[0];
      assert (a + b)[1..] == a[1..] + b;
      TextAppend(a[1..], b);
    }
  }

  /** Rendering peels off the first clause: the builders' step-by-step appends
      agree with the reference form. */
  lemma RenderStep(head: string, c: Clause, rest: seq<Clause>)
    ensures Render(head, [c] + rest) == Render(head + Piece(c), rest)
  {
    assert ([c] + rest)[1..] == rest;
    var first := if c.arg != "" then [c] else [];
    TextAppend(first, Present(rest));
    assert Text(first) == Piece(c);
  }

  function SimpleSelectClauses(where: string, groupBy: string, orderBy: string): seq<Clause> {
    [Clause(" WHERE ", where), Clause(" GROUP BY ", groupBy), Clause(" ORDER BY ", orderBy)]
  }

  /** `if (arg.isNotEmpty()) query += keyword + arg`. */
  function AppendIfPresent(query: string, keyword: string, arg: string): (r: string)
    ensures r == query + Piece(Clause(keyword, arg))
  {
    if arg != "" then query + keyword + arg else query
  }

  /** `simpleSelect` / `createSimpleSelect`, step by step as the source appends. */
  function SimpleSelect(columns: string, table: string, where: string, groupBy: string, orderBy: string): (q: string)
    ensures q == Render("SELECT " + columns + " FROM " + table, SimpleSelectClauses(where, groupBy, orderBy))
  {
    var q0 := "SELECT " + columns + " FROM " + table;
    var q1 := AppendIfPresent(q0, " WHERE ", where);
    var q2 := AppendIfPresent(q1, " GROUP BY ", groupBy);
    var q3 := AppendIfPresent(q2, " ORDER BY ", orderBy);
    RenderThree(q0, Clause(" WHERE ", where), Clause(" GROUP BY ", groupBy), Clause(" ORDER BY ", orderBy));
    q3
  }

  lemma RenderThree(head: string, a: Clause, b: Clause, c: Clause)
    ensures Render(head, [a, b, c]) == head + Piece(a) + Piece(b) + Piece(c)
  {
    assert [a, b, c] == [a] + [b, c];
    RenderStep(head, a, [b, c]);
    assert [b, c] == [b] + [c];
    RenderStep(head + Piece(a), b, [c]);
    RenderStep(head + Piece(a) + Piece(b), c, []);
  }

  /** With every optional clause empty the query is the bare select. */
  lemma SimpleSelectBare(columns: string, table: string)
    ensures SimpleSelect(columns, table, "", "", "") == "SELECT " + columns + " FROM " + table
  {
  }

  /** The present clauses follow the head in the fixed order WHERE, GROUP BY,
      ORDER BY, each argument verbatim. */
  lemma SimpleSelectOrder(columns: string, table: string, where: string, groupBy: string, orderBy: string)
    requires where != "" && groupBy != "" && orderBy != ""
    ensures SimpleSelect(columns, table, where, groupBy, orderBy)
         == "SELECT " + columns + " FROM " + table + " WHERE " + where + " GROUP BY " + groupBy + " ORDER BY " + orderBy
  {
  }

  /** Each clause contributes its keyword and argument exactly when the argument
      is non-empty, and nothing otherwise. */
  lemma SimpleSelectLength(columns: string, table: string, where: string, groupBy: string, orderBy: string)
    ensures |SimpleSelect(columns, table, where, groupBy, orderBy)|
         == |"SELECT " + columns + " FROM " + table|
          + (if where == "" then 0 else 7 + |where|)
          + (if groupBy == "" then 0 else 10 + |groupBy|)
          + (if orderBy == "" then 0 else 10 + |orderBy|)
  {
  }

  function DistinctSelectClauses(where: string): seq<Clause> {
    [Clause(" WHERE ", where)]
  }

  /** `distinctSelect` / `createDistinctSelect`: an optional WHERE only. */
  function DistinctSelect(columns: string, table: string, where: string): (q: string)
    ensures q == Render("SELECT DISTINCT " + columns + " FROM " + table, DistinctSelectClauses(where))
  {
    var q0 := "SELECT DISTINCT " + columns + " FROM " + table;
    RenderStep(q0, Clause(" WHERE ", where), []);
    AppendIfPresent(q0, " WHERE ", where)
  }

  /** The joins, each as "LEFT OUTER JOIN j " in order. */
  function JoinText(joins: seq<string>): (r: string)
    ensures |joins| == 0 ==> r == ""
  {
    if joins == [] then "" else JoinText(joins[..|joins| - 1]) + "LEFT OUTER JOIN " + joins[|joins| - 1] + " "
  }

  /** `complexSelect`'s clauses: note there is no space before GROUP BY. */
  function ComplexSelectClauses(where: string, groupBy: string): seq<Clause> {
    [Clause("WHERE ", where), Clause("GROUP BY ", groupBy)]
  }

  /** `complexSelect` / `createComplexSelect`, with the source's join loop. */
  method ComplexSelect(columns: string, table: string, joins: seq<string>, where: string, groupBy: string)
    returns (q: string)
    ensures q == Render("SELECT " + columns + " FROM " + table + " " + JoinText(joins),
                        ComplexSelectClauses(where, groupBy))
    ensures where != "" && groupBy != "" ==>
      q == "SELECT " + columns + " FROM " + table + " " + JoinText(joins) + "WHERE " + where + "GROUP BY " + groupBy
  {
    q := "SELECT " + columns + " FROM " + table + " ";
    var i := 0;
    while i < |joins|
      invariant 0 <= i <= |joins|
      invariant q == "SELECT " + columns + " FROM " + table + " " + JoinText(joins[..i])
    {
      assert joins[..i + 1][..i] == joins[..i];
      q := q + "LEFT OUTER JOIN " + joins[i] + " ";
      i := i + 1;
    }
    assert joins[..i] == joins;
    var w, g := Clause("WHERE ", where), Clause("GROUP BY ", groupBy);
    assert ComplexSelectClauses(where, groupBy) == [w] + [g];
    RenderStep(q, w, [g]);
    RenderStep(q + Piece(w), g, []);
    if where != "" {
      q := q + "WHERE " + where;
    }
    if groupBy != "" {
      q := q + "GROUP BY " + groupBy;
    }
  }

  /** Joins keep array order: the text of two join lists in sequence is the text
      of the first followed by the text of the second. */
  lemma {:induction false} JoinTextAppend(a: seq<string>, b: seq<string>)
    ensures JoinText(a + b) == JoinText(a) + JoinText(b)
    decreases |b|
  {
    if b == [] {
      assert a + b == a;
    } else {
      var front := b[..|b| - 1];
      assert (a + b)[..|a + b| - 1] == a + front;
      assert (a + b)[|a + b| - 1] == b[|b| - 1];
      JoinTextAppend(a, front);
    }
  }

  /** `getDBPath` (all copies): the application data directory plus "/databases/". */
  function DbPath(dataDir: string): (r: string)
    ensures |r| == |dataDir| + 11 && r[..|dataDir|] == dataDir && r[|dataDir|..] == "/databases/"
  {
    dataDir + "/databases/"
  }
}

/** `BaseModel` in QuickBaseClass.kt and its older copy in BaseClass.kt: select
    helpers that delegate to the builders unchanged, and `delete`. */
module BaseModel {
  import Sql

  function SimpleSelect(columns: string, table: string, where: string, groupBy: string, orderBy: string): (q: string)
    ensures q == Sql.SimpleSelect(columns, table, where, groupBy, orderBy)
  {
    Sql.SimpleSelect(columns, table, where, groupBy, orderBy)
  }

  function DistinctSelect(columns: string, table: string, where: string): (q: string)
    ensures q == Sql.DistinctSelect(columns, table, where)
  {
    Sql.DistinctSelect(columns, table, where)
  }

  /** `delete`: the same optional-WHERE rule as the select builders. */
  function Delete(table: string, where: string): (q: string)
    ensures q == Sql.Render("DELETE FROM " + table, Sql.DistinctSelectClauses(where))
  {
    Sql.RenderStep("DELETE FROM " + table, Sql.Clause(" WHERE ", where), []);
    if where != "" then "DELETE FROM " + table + " WHERE " + where else "DELETE FROM " + table
  }

  /** The two shapes of `delete`: the bare statement, or with " WHERE " and the
      condition appended. */
  lemma DeleteShape(table: string, where: string)
    ensures where == "" ==> Delete(table, where) == "DELETE FROM " + table
    ensures where != "" ==> Delete(table, where) == "DELETE FROM " + table + " WHERE " + where
    ensures StartsWithDelete(Delete(table, where), table)
  {
  }

  predicate StartsWithDelete(q: string, table: string) {
    var head := "DELETE FROM " + table;
    |head| <= |q| && q[..|head|] == head
  }

  /** `delete` and `distinctSelect` attach the same WHERE tail to their heads. */
  lemma DeleteWhereMatchesDistinct(columns: string, table: string, where: string)
    ensures var dHead := "DELETE FROM " + table;
      var sHead := "SELECT DISTINCT " + columns + " FROM " + table;
      Delete(table, where)[|dHead|..] == Sql.DistinctSelect(columns, table, where)[|sHead|..]
  {
  }
}
